=== FILE: README.md ===
# Personal finance ledger — Dafny model

This project models the server side of a personal finance tracker. Users register and log in. They keep
**profiles**, which are money pools with a stored `balance`, and **categories**. They record
**transactions** that move money into or out of a profile. The model covers:

- the transaction, profile and category server actions, as pure transitions over an immutable store
  (`Ledger.Store`). The store holds three owner-scoped collections keyed by document `_id`. Each action
  returns `Ok(newStore)` or `Err(message)` with the message the action reports;
- the `register` / `login` statics of the user model and the two auth actions;
- the routing decision of the middleware;
- the balance display helpers and the `ActionResult` helper.

**The ledger invariant.** A profile is created holding an opening balance. Every transaction action then
moves it by the amounts of the transactions that reference it. What these actions keep is the
profile's **offset**: its stored balance minus the sum of the balances of its transactions
(`Ledger.Offset`, built on the ghost sum `Ledger.Total`). Every transaction and category action, and
`deleteProfile`, keeps the offset of every surviving profile. `editProfile` is the one action that
overwrites a balance. The store invariant `Ledger.Valid` says two things:

- every id is below the id counter;
- every transaction's profile exists and belongs to the transaction's owner.

Every action preserves `Ledger.Valid`. Every action also leaves what other users can see unchanged
(`Ledger.Isolated`). `LedgerRun` chains the actions into arbitrary runs from the empty store
(`StepPreserves`, `RunPreserves`). It also states the outcome of a few concrete runs: a wallet of 100 with a debit of
30, then that debit edited, moved to another profile, or deleted, and a category delete that reverses two
debits.

**Behaviours of the code that the model keeps as they are.**
- A profile's stored balance is its opening balance plus the amounts of its transactions. So the sum of
  its transactions alone is not its balance, and the preserved quantity is the offset.
- No action looks up a transaction's category, so a transaction may reference a missing or foreign
  category. `TransactionActions.AddIgnoresCategories` and `CategoryActions.CascadeIgnoresCategories`
  state this.
- Editing or deleting a profile or category id that is missing or belongs to another user matches no
  profile or category record, and the action still answers ok. For `deleteProfile` no transaction goes
  either on a valid store (`ProfileActions.DeleteMissingIsNoOp`); for `deleteCategory` see below.
- `deleteTransaction` never looks up the profile. When that profile is missing, the transaction is still
  deleted and the balance update matches nothing.
- `editTransaction` chooses its branch at `src/actions/transactions/action.ts:226` with `===` between an
  ObjectId and the form's string. That is a reference comparison and does not hold at run time. The model
  takes its outcome as a parameter (`sameReference`). `TransactionActions.EditIgnoresReferenceTest`
  proves that the result does not depend on it.
- Because categories are unchecked, `deleteCategory` on an id with no category of the caller's (absent,
  or another user's) still removes and reverses the caller's transactions that carry that id. Deleting
  such an id changes nothing only when no transaction of the caller references it
  (`CategoryActions.DeleteUnreferencedTouchesNoBalance`).
- The regular expression `/^(\D*)(.*)/` in the balance display: `.` does not match line terminators.
  So `symbol + value` equals the input exactly when no line terminator follows the first digit.
  `BalanceDisplay.SeparateSymbolFromCurrency` states that, not the unconditional round trip.

Form validation is modelled through the zod issue lists. A schema reports every failing check in key
order. An object-level refinement still runs after a field check fails. The action answers with the first
message. Library predicates are abstracted into the shape of a raw field: `RawId`, `RawNumber` and
`RawDate` cover ObjectId validity, number coercion and zoned date-time parsing.

## Model

| member | source | states |
|---|---|---|
| `Validation.FirstIssueOfConcat` | src/actions/transactions/action.ts:195-198 | the message an action reports for a failed parse comes from the earliest failing check: issues of later keys never change it |
| `Validation.LengthIssues` | src/actions/auth/register/action.ts:21-32 | a `min`/`max` string check raises nothing exactly inside the bounds, the `min` message below, the `max` message above |
| `TransactionActions.FormIssues` | src/actions/transactions/action.ts:46-65 | the transaction form passes iff both ids are ObjectIds, the description has at most 64 characters, the balance is a number and the date parses; the first failing key decides the message: "Invalid input" for either id, then the description, then "Balance must be a number.", then the zoned-date message |
| `TransactionActions.GetTransactions` | src/actions/transactions/action.ts:13-32 | exactly the caller's transactions; an empty list without a session |
| `TransactionActions.AddTransaction` | src/actions/transactions/action.ts:67-96 | validation errors first, then "Invalid user session.", then "Profile doesn't exist." when the profile is absent or foreign; on success exactly one new transaction owned by the caller carrying every field of the form, that profile's record changed only in its balance, raised by the amount, every other profile and all categories untouched |
| `TransactionActions.AddIgnoresCategories` | src/actions/transactions/action.ts:77-96 | success and effect do not depend on the categories in the store: the category is never checked |
| `TransactionActions.AddPreserves` | src/actions/transactions/action.ts:88-96 | adding keeps the store valid, every profile's offset, and every other user's view |
| `TransactionActions.DeleteTransaction` | src/actions/transactions/action.ts:118-150 | "Transaction doesn't exist." for an absent or foreign id; otherwise exactly that transaction goes, its profile's record changes only in its balance, lowered by the amount (a foreign or missing profile is untouched), nothing else changes |
| `TransactionActions.DeletePreserves` | src/actions/transactions/action.ts:139-150 | deleting keeps validity, every offset, and other users' views |
| `TransactionActions.AddThenDelete` | src/actions/transactions/action.ts:139-150 | deleting the transaction just added restores every profile, category and transaction; only the id counter has moved |
| `TransactionActions.EditTransaction` | src/actions/transactions/action.ts:195-250 | the error cases in source order ("Transaction doesn't exist.", "Profile associate with current transaction doesn't exist.", then "Profile doesn't exist." exactly when the new profile is absent or foreign) with no write; on success the transaction takes the new fields, the old and new profiles change only in their balances (old amount out, new amount in), every other profile and all categories are untouched |
| `TransactionActions.EditPreserves` | src/actions/transactions/action.ts:226-250 | editing keeps validity, every offset, and other users' views |
| `TransactionActions.EditIgnoresReferenceTest` | src/actions/transactions/action.ts:226-250 | both branches give the same store when the new profile id equals the old one: that profile moves by new minus old |
| `TransactionActions.EditReportsMalformedId` | src/actions/transactions/action.ts:173-198 | a malformed `_id` is reported as "Invalid input" whatever the other fields, the session and the store hold |
| `ProfileActions.FormIssues` | src/actions/profiles/action.ts:41-55 | a name of 1 to 64 characters, a description of at most 64, a numeric balance; the first failing key decides the message, ending with "Balance must be a number." when only the balance is wrong |
| `ProfileActions.GetProfiles` | src/actions/profiles/action.ts:12-29 | exactly the caller's profiles; an empty list without a session |
| `ProfileActions.AddProfile` | src/actions/profiles/action.ts:52-64 | on success one new profile owned by the caller whose balance is the supplied one; nothing else changes |
| `ProfileActions.AddPreserves` | src/actions/profiles/action.ts:64 | a new profile's offset equals its opening balance; validity, other offsets and other users' views are kept |
| `ProfileActions.EditProfile` | src/actions/profiles/action.ts:140-155 | replaces name, description and balance of the caller's matching profile only; an absent or foreign id answers ok and changes nothing |
| `ProfileActions.EditPreserves` | src/actions/profiles/action.ts:152-155 | the edited profile's offset becomes the new balance minus its transaction sum; every other offset is kept |
| `ProfileActions.EditReportsMalformedId` | src/actions/profiles/action.ts:128-143 | a malformed `_id` is reported as "Invalid input" whatever the other fields, the session and the store hold |
| `ProfileActions.DeleteProfile` | src/actions/profiles/action.ts:86-107 | removes the caller's profile and exactly the caller's transactions referencing it; other profiles and transactions unchanged |
| `ProfileActions.DeletePreserves` | src/actions/profiles/action.ts:99-107 | after deleting the caller's profile no transaction references it; validity, surviving offsets and other users' views are kept |
| `ProfileActions.DeleteMissingIsNoOp` | src/actions/profiles/action.ts:96-114 | deleting an absent or foreign profile answers ok with the store unchanged |
| `CategoryActions.NameIssues` | src/actions/categories/action.ts:40-50 | a name passes iff it has 1 to 64 characters, with the matching message otherwise |
| `CategoryActions.GetCategories` | src/actions/categories/action.ts:13-30 | exactly the caller's categories; an empty list without a session |
| `CategoryActions.AddCategory` | src/actions/categories/action.ts:47-59 | on success one new category owned by the caller; profiles and transactions unchanged |
| `CategoryActions.AddPreserves` | src/actions/categories/action.ts:59 | adding a category keeps validity, every offset and other users' views |
| `CategoryActions.EditCategory` | src/actions/categories/action.ts:144-159 | renames only the caller's matching category; a foreign or absent id changes nothing |
| `CategoryActions.EditPreserves` | src/actions/categories/action.ts:156-159 | renaming keeps validity, every offset and other users' views |
| `CategoryActions.EditReportsMalformedId` | src/actions/categories/action.ts:136-147 | a malformed `_id` is reported as "Invalid input" whatever the name, the session and the store hold |
| `CategoryActions.DeleteCategoryResult` | src/actions/categories/action.ts:81-117 | the caller's transactions of the category are exactly those removed, other users' profiles are untouched, the category goes if it is the caller's |
| `CategoryActions.DeleteCategory` | src/actions/categories/action.ts:94-117 | reversing and deleting the found transactions one at a time, in any order, gives the closed form above |
| `CategoryActions.DeletePreserves` | src/actions/categories/action.ts:99-117 | each profile drops by exactly the sum of the removed transactions that referenced it; offsets, validity and other users' views are kept; no caller transaction of the category remains |
| `CategoryActions.DeleteUnreferencedTouchesNoBalance` | src/actions/categories/action.ts:91-124 | when no caller transaction references the id, only the category itself may go; no balance or transaction changes |
| `CategoryActions.CascadeIgnoresCategories` | src/actions/categories/action.ts:94-98 | the cascade removes and reverses the same transactions whether or not a category with that id exists |
| `Users.FindByUsername` | src/models/user.ts:46 | the first account with that username, and none exactly when no account has it |
| `Users.Register` | src/models/user.ts:56-68 | a taken username gives false and adds nothing; a fresh one gives true and appends exactly one account whose password is the hash of the given one |
| `Users.Login` | src/models/user.ts:40-54 | null when the lookup fails, when no user has the username, or when the password does not match the stored hash; otherwise the first account with that username, as `findOne` returns it |
| `Users.RegisterKeepsNamesUnique` | src/models/user.ts:60-67 | registration never creates a second account with the same username |
| `Users.RegisterThenLogin` | src/models/user.ts:40-68 | if a password matches its own hash, a successful registration is followed by a login that returns the new account |
| `AuthActions.RegisterIssues` | src/actions/auth/register/action.ts:19-41 | username 1 to 64, password and confirmation 8 to 64, each with its `min`/`max` message in key order, then "Passwords do not match." when they differ; the first issue is the one reported |
| `AuthActions.RegisterAction` | src/actions/auth/register/action.ts:39-58 | a schema message, a connection error, an error thrown by the lookup or insert of `User.register`, or "Username already exist." leave the users unchanged; otherwise one new account and a redirect to `/auth/login` |
| `AuthActions.LoginIssues` | src/actions/auth/login/action.ts:19-33 | username and password of 1 to 64 characters, checked before any store access |
| `AuthActions.LoginAction` | src/actions/auth/login/action.ts:30-52 | schema and connection errors, then "Wrong username or password." with no session; when the credentials match, a session-creation error is reported with no session, and otherwise the answer is the redirect to `/profiles` with a session for the matched account; a session exists exactly when the answer is that redirect |
| `AuthActions.RegisterThenLoginAction` | src/actions/auth/login/action.ts:41-52 | registering through the form, then logging in with the same credentials, reaches `/profiles` with a session for the new account |
| `Middleware.Route` | src/middleware.ts:16-40 | signed in: auth pages redirect to `/profiles`, any other path passes and the session is refreshed; signed out: `/auth/login...` passes, everything else (including `/auth/register`) redirects to `/auth/login`; the cookie is cleared exactly when signed out |
| `Middleware.RedirectsSettle` | src/middleware.ts:21-36 | following a redirect with the same session passes through: no redirect loop |
| `Middleware.RegisterRedirectsSignedOut` | src/middleware.ts:33-36 | without a signed-in session a register path is redirected to the login page |
| `Middleware.RegisterNeverServed` | src/middleware.ts:21-37 | no session, signed in or not, is ever passed through to a register path |
| `Middleware.IntendedRoute` | src/middleware.ts:16-40 | the corrected routing: signed out, both auth pages pass and everything else redirects to the login page; the signed-in rows, cookie clearing and refresh are as written |
| `Middleware.IntendedServesRegister` | src/middleware.ts:33-37 | with the corrected routing a signed-out visitor reaches the register page |
| `Middleware.IntendedDiffersOnlyOnRegister` | src/middleware.ts:16-40 | the corrected routing decides every non-register path exactly as the written one |
| `Middleware.IntendedRedirectsSettle` | src/middleware.ts:16-40 | the corrected routing has no redirect loop |
| `BalanceDisplay.ClassName` | src/components/balance.tsx:1-5 | red exactly for negative balances, green exactly for positive, gray exactly for zero |
| `BalanceDisplay.ClassNameIsSign` | src/components/balance.tsx:1-5 | two balances share a class exactly when they share a sign |
| `BalanceDisplay.Exec` | src/components/balance.tsx:17-18 | the groups returned form a match of `^(\D*)(.*)` and concatenate to a prefix of the input |
| `BalanceDisplay.ExecIsGreedy` | src/components/balance.tsx:17 | the returned match is the greedy one: no match has a longer first group, and none with the same first group has a longer second |
| `BalanceDisplay.SeparateSymbolFromCurrency` | src/components/balance.tsx:16-21 | the regex always matches (the fallback is unreachable); the symbol has no digit and is the longest digit-free prefix; the value is empty or starts with a digit, holds no line terminator and stops only at a line terminator or the end of the input; symbol and value form a prefix of the input, the whole input exactly when no line terminator follows the symbol |
| `ActionResults.State` | src/actions/types.ts:21-32 | a truthy argument always yields an error record, a falsy one never does |
| `ActionResults.OkState` | src/actions/types.ts:34-36 | `ok()` has `error === null` |
| `ActionResults.ErrorState` | src/actions/types.ts:38-40 | `error(e)` carries a record with `e`'s name, message and cause, and does not close a form |
| `ActionResults.ErrorRoundTrip` | src/actions/types.ts:22-30 | the record built from `e` gives `e` back |
| `ActionResults.Respond` | src/actions/types.ts:34-40 | a form closes on an action's answer exactly when the action succeeded; a failure reports its message under the name "Error" |
| `ActionResults.ClosesOnlyAfterOk` | src/components/client/transactions_table.tsx:79-83 | a form closes exactly on `state(null)`; `state()` leaves `error` undefined, which differs from null |
| `LedgerRun.OpenFormMeansNoWrite` | src/components/client/transactions_table.tsx:78-82 | the form that sent a request closes exactly when the action accepted it; a form left open means the request was refused and the store is unchanged |

## Findings

| source | as written | input that shows it | evidently intended | confidence | as-written member | corrected member |
|---|---|---|---|---|---|---|
| src/middleware.ts:21-37 | signed in, a register path redirects to `/profiles`; signed out, only paths under `/auth/login` pass, so a register path redirects to `/auth/login` | no session, path `/auth/register`: redirected to `/auth/login`; the register page, linked from the login form, is unreachable | signed out, paths under `/auth/register` pass through like the login page | high (not executed) | `Middleware.RegisterNeverServed` | `Middleware.IntendedRoute` |

## Left out

- MongoDB and Mongoose I/O, the connection cache and `revalidatePath`. Each `connection.transaction` block is one atomic step.
- The `connection.transaction` blocks of `addTransaction` and `deleteTransaction` are not awaited, so their failures are never reported. A sequential model cannot express that; both are treated as committed when the action answers.
- Store errors caught by the actions' `catch` blocks, and the empty list the `get` actions return on a read failure: the model has no failing store. The auth actions are the exception: there, connection failures, errors thrown inside `User.register`, the failure of `User.login`'s lookup and session-creation failures are parameters.
- `config.matcher` of the middleware: requests for `_next/static`, `_next/image` and `favicon.ico` never reach it. `Middleware.Route` decides only the requests the matcher admits.
- Concurrency between requests. The code has no coordination of its own.
- Floating-point `number` amounts and balances are modelled as `int`, so sums are exact. `getClassName` on NaN is not modelled.
- JWT signing and encryption, and cookies. The session is `Option<UserId>`, and in the middleware the verified payload.
- bcrypt. `hash` and `compare` are function parameters. The only fact used about them is that a password matches its own hash, and it is a precondition of the round-trip lemmas.
- zod coercion, `ObjectId.isValid` and `parseZonedDateTime`. These are the shapes of `RawId`, `RawNumber` and `RawDate`. A missing form field (`data.get` giving `null`) is not modelled. String lengths count characters, whereas JavaScript counts UTF-16 code units.
- `formatToCurrency`, which is locale formatting, and all React components. That includes the client-side filter, sort and per-category totals.
- `populate` in `getTransactions`, which is presentation only.
- The older parallel implementation: `app/api/*`, `utils/*`, `models/*`, `components/*` and the root `middleware.ts`.
- `src/utilities/server/http.ts` and `src/utilities/server/auth.ts` are not part of this model.
- CategoryActions.DeleteCategory: removes the found transactions by key one at a time and proves that the result is the same for every order. The concurrent interleaving of the source's `Promise.all` is not modelled.
- Users.Register: the check-then-create race between two concurrent registrations of the same username is not modelled. Uniqueness is proved only for sequential calls.
- ObjectId generation is modelled by a counter in the store, so new ids never collide with existing ones.

=== FILE: action_result.dfy ===
/**
 * `ActionResult`, the helper every server action answers through, and the
 * `ActionState` it builds.
 *
 * The `error` property of an `ActionState` has three values that matter:
 * undefined (`state()` with no argument, the initial form state), `null`
 * (`ok()`), or an error record. Forms close when they see `error === null`,
 * so only a real `ok()` closes one.
 */
module ActionResults {
  import opened Wrappers

  /** A JavaScript `Error`: its `name`, `message` and optional `cause`. */
  datatype ErrorValue = ErrorValue(name: string, message: string, cause: Option<string>)

  /** The argument of `ActionResult.state`: omitted, `null`, or an error object (always truthy). */
  datatype StateArg = Omitted | Null | Thrown(thrown: ErrorValue)

  /** The plain record `ActionResult.state` copies an error into. */
  datatype ActionError = ActionError(name: string, message: string, cause: Option<string>)

  /** The `error` property: undefined, `null`, or an error record. */
  datatype ErrorSlot = Undefined | NullError | Reported(err: ActionError)

  datatype ActionState = ActionState(error: ErrorSlot)

  /** A JavaScript truthiness test on the argument of `state`. */
  predicate Truthy(arg: StateArg) {
    arg.Thrown?
  }

  /** The test the forms use to close themselves: `state.error === null`. */
  predicate Closes(s: ActionState) {
    s.error == NullError
  }

  /** `ActionResult.state(error)`: copies a truthy error, otherwise passes `error` through. */
  function State(arg: StateArg): (s: ActionState)
    ensures Truthy(arg) ==> s.error.Reported?
    ensures !Truthy(arg) ==> !s.error.Reported?
  {
    match arg
    case Thrown(e) => ActionState(Reported(ActionError(e.name, e.message, e.cause)))
    case Null => ActionState(NullError)
    case Omitted => ActionState(Undefined)
  }

  /** `ActionResult.ok()`. */
  function OkState(): (s: ActionState)
    ensures Closes(s)
  {
    State(Null)
  }

  /** `ActionResult.error(e)`: a record with the same name, message and cause as `e`. */
  function ErrorState(e: ErrorValue): (s: ActionState)
    ensures s.error.Reported?
    ensures s.error.err.name == e.name && s.error.err.message == e.message && s.error.err.cause == e.cause
    ensures !Closes(s)
  {
    State(Thrown(e))
  }

  /** `Error(message)`: an error named "Error" with no cause. */
  function PlainError(message: string): ErrorValue {
    ErrorValue("Error", message, None)
  }

  /** What a server action answers for an outcome of the model. */
  function Respond<T>(r: Result<T>): (s: ActionState)
    ensures Closes(s) <==> r.Ok?
    ensures r.Err? ==> s.error == Reported(ActionError("Error", r.message, None))
  {
    match r
    case Ok(_) => OkState()
    case Err(m) => ErrorState(PlainError(m))
  }

  /** A form closes exactly after `ok()`: neither an error nor the omitted argument closes it. */
  lemma ClosesOnlyAfterOk(arg: StateArg)
    ensures Closes(State(arg)) <==> arg == Null
    ensures State(Omitted).error != State(Null).error
  {
  }

  /** The record `error(e)` carries gives `e` back. */
  lemma ErrorRoundTrip(e: ErrorValue)
    ensures var a := ErrorState(e).error.err; ErrorValue(a.name, a.message, a.cause) == e
  {
  }
}

=== FILE: auth_actions.dfy ===
/**
 * The `register` and `login` server actions: schema checks, then the user
 * model's statics, then the answer (an error message or a redirect).
 *
 * Failures of the connection, of the store calls inside `User.register`,
 * and of session creation are given as parameters (`Some(message)` when
 * the call throws).
 */
module AuthActions {
  import opened Wrappers
  import opened Validation
  import opened Users

  const UsernameTooShort: string := "Username must be at least 1 character long."
  const UsernameTooLong: string := "Username must not exceed 64 characters long."
  const PasswordTooShort: string := "Password must be at least 8 characters long."
  const PasswordEmpty: string := "Password must be at least 1 character long."
  const PasswordTooLong: string := "Password must not exceed 64 characters long."
  const PasswordMismatch: string := "Passwords do not match."
  const UsernameTaken: string := "Username already exist."
  const WrongCredentials: string := "Wrong username or password."
  const LoginPage: string := "/auth/login"
  const ProfilesPage: string := "/profiles"

  /** What an auth action answers: an error message, or a redirect. */
  datatype Reply = Failed(message: string) | Redirect(path: string)

  datatype RegisterForm = RegisterForm(username: string, password: string, confirmPassword: string)
  datatype LoginForm = LoginForm(username: string, password: string)

  /**
   * The issues of the register schema: the three fields in key order, then the
   * object-level refinement, which zod still runs when a field check failed.
   */
  function RegisterIssues(f: RegisterForm): (issues: seq<string>)
    ensures issues == [] <==>
      1 <= |f.username| <= 64 && 8 <= |f.password| <= 64 && 8 <= |f.confirmPassword| <= 64
      && f.password == f.confirmPassword
    ensures |f.username| == 0 ==> issues[0] == UsernameTooShort
    ensures |f.username| > 64 ==> issues[0] == UsernameTooLong
    ensures 1 <= |f.username| <= 64 && |f.password| < 8 ==> issues[0] == PasswordTooShort
    ensures 1 <= |f.username| <= 64 && |f.password| > 64 ==> issues[0] == PasswordTooLong
    ensures 1 <= |f.username| <= 64 && 8 <= |f.password| <= 64 && |f.confirmPassword| < 8 ==>
      issues[0] == PasswordTooShort
    ensures 1 <= |f.username| <= 64 && 8 <= |f.password| <= 64 && |f.confirmPassword| > 64 ==>
      issues[0] == PasswordTooLong
    ensures (&& 1 <= |f.username| <= 64 && 8 <= |f.password| <= 64 && 8 <= |f.confirmPassword| <= 64
             && f.password != f.confirmPassword) ==> issues == [PasswordMismatch]
  {
    LengthIssues(f.username, 1, 64, UsernameTooShort, UsernameTooLong)
    + LengthIssues(f.password, 8, 64, PasswordTooShort, PasswordTooLong)
    + LengthIssues(f.confirmPassword, 8, 64, PasswordTooShort, PasswordTooLong)
    + (if f.password != f.confirmPassword then [PasswordMismatch] else [])
  }

  function LoginIssues(f: LoginForm): (issues: seq<string>)
    ensures issues == [] <==> 1 <= |f.username| <= 64 && 1 <= |f.password| <= 64
    ensures |f.username| == 0 ==> issues[0] == UsernameTooShort
    ensures |f.username| > 64 ==> issues[0] == UsernameTooLong
    ensures 1 <= |f.username| <= 64 && |f.password| == 0 ==> issues[0] == PasswordEmpty
    ensures 1 <= |f.username| <= 64 && |f.password| > 64 ==> issues[0] == PasswordTooLong
  {
    LengthIssues(f.username, 1, 64, UsernameTooShort, UsernameTooLong)
    + LengthIssues(f.password, 1, 64, PasswordEmpty, PasswordTooLong)
  }

  /**
   * `register`: the first schema issue, a connection error, an error thrown
   * by the lookup or the insert of `User.register` (`storeError`), a taken
   * username, or a new account and a redirect to the login page.
   */
  function RegisterAction(st: UserStore, f: RegisterForm, connectError: Option<string>, storeError: Option<string>,
                          salt: nat, hash: (string, nat) -> Digest): (r: (Reply, UserStore))
    ensures RegisterIssues(f) != [] ==> r == (Failed(RegisterIssues(f)[0]), st)
    ensures RegisterIssues(f) == [] && connectError.Some? ==> r == (Failed(connectError.value), st)
    ensures RegisterIssues(f) == [] && connectError.None? && storeError.Some? ==>
      r == (Failed(storeError.value), st)
    ensures RegisterIssues(f) == [] && connectError.None? && storeError.None?
            && FindByUsername(st.accounts, f.username).Some? ==>
      r == (Failed(UsernameTaken), st)
    ensures r.0.Redirect? <==>
      && RegisterIssues(f) == [] && connectError.None? && storeError.None?
      && FindByUsername(st.accounts, f.username).None?
    ensures r.0.Redirect? ==> r.0.path == LoginPage
    ensures r.0.Redirect? ==> r.1.accounts == st.accounts + [Account(st.next, f.username, hash(f.password, salt))]
    ensures r.0.Failed? ==> r.1 == st
  {
    var reported := FirstIssue(RegisterIssues(f));
    if reported.Some? then (Failed(reported.value), st)
    else if connectError.Some? then (Failed(connectError.value), st)
    else if storeError.Some? then (Failed(storeError.value), st)
    else
      var (created, st') := Register(st, f.username, f.password, salt, hash);
      if !created then (Failed(UsernameTaken), st) else (Redirect(LoginPage), st')
  }

  /** The answer of `login`, and the session it leaves behind. */
  datatype LoginOutcome = LoginOutcome(reply: Reply, session: Option<UserId>)

  /**
   * `login`: the first schema issue, a connection error, wrong credentials,
   * a failure to create the session, or a session for the user and a
   * redirect to the profiles page.
   */
  function LoginAction(st: UserStore, f: LoginForm, connectError: Option<string>, lookupFails: bool,
                       sessionError: Option<string>, compare: (string, Digest) -> bool): (r: LoginOutcome)
    ensures LoginIssues(f) != [] ==> r == LoginOutcome(Failed(LoginIssues(f)[0]), None)
    ensures LoginIssues(f) == [] && connectError.Some? ==> r == LoginOutcome(Failed(connectError.value), None)
    ensures LoginIssues(f) == [] && connectError.None?
            && Login(st, f.username, f.password, lookupFails, compare).None? ==>
      r == LoginOutcome(Failed(WrongCredentials), None)
    ensures LoginIssues(f) == [] && connectError.None?
            && Login(st, f.username, f.password, lookupFails, compare).Some? ==>
      r == if sessionError.Some? then LoginOutcome(Failed(sessionError.value), None)
           else LoginOutcome(Redirect(ProfilesPage), Some(Login(st, f.username, f.password, lookupFails, compare).value.id))
    ensures r.session.Some? <==> r.reply.Redirect?
    ensures r.reply.Redirect? ==> r.reply.path == ProfilesPage
    ensures r.reply.Redirect? ==>
      exists a :: a in st.accounts && a.id == r.session.value && a.username == f.username
                  && compare(f.password, a.password)
  {
    var reported := FirstIssue(LoginIssues(f));
    if reported.Some? then LoginOutcome(Failed(reported.value), None)
    else if connectError.Some? then LoginOutcome(Failed(connectError.value), None)
    else
      var user := Login(st, f.username, f.password, lookupFails, compare);
      if user.None? then LoginOutcome(Failed(WrongCredentials), None)
      else if sessionError.Some? then LoginOutcome(Failed(sessionError.value), None)
      else LoginOutcome(Redirect(ProfilesPage), Some(user.value.id))
  }

  /**
   * Registering through the form and then logging in with the same username
   * and password reaches the profiles page with a session for the new account,
   * provided a password matches its own hash.
   */
  lemma RegisterThenLoginAction(st: UserStore, f: RegisterForm, salt: nat,
                                hash: (string, nat) -> Digest, compare: (string, Digest) -> bool)
    requires forall p, s :: compare(p, hash(p, s))
    requires RegisterAction(st, f, None, None, salt, hash).0.Redirect?
    ensures LoginAction(RegisterAction(st, f, None, None, salt, hash).1, LoginForm(f.username, f.password),
                        None, false, None, compare)
            == LoginOutcome(Redirect(ProfilesPage), Some(st.next))
  {
    RegisterThenLogin(st, f.username, f.password, salt, hash, compare);
  }
}

=== FILE: balance_display.dfy ===
/**
 * The two pure helpers of the balance component: the colour class chosen
 * from the sign of a balance, and the split of a formatted amount into its
 * currency symbol and its value with `/^(\D*)(.*)/`.
 *
 * In that expression `\D` is any character but `0`-`9`, and `.` is any
 * character but a line terminator, so the value stops at the first line
 * terminator after the symbol.
 */
module BalanceDisplay {
  import opened Wrappers

  const Red: string := "text-red-400"
  const Green: string := "text-green-400"
  const Gray: string := "text-gray-500"

  /** `getClassName`. */
  function ClassName(balance: int): (c: string)
    ensures c == Red <==> balance < 0
    ensures c == Green <==> balance > 0
    ensures c == Gray <==> balance == 0
  {
    if balance < 0 then Red else if balance > 0 then Green else Gray
  }

  /** Two balances get the same class exactly when they have the same sign. */
  lemma ClassNameIsSign(a: int, b: int)
    ensures ClassName(a) == ClassName(b) <==> (a < 0 <==> b < 0) && (a > 0 <==> b > 0)
  {
  }

  predicate IsDigit(c: char) {
    '0' <= c <= '9'
  }

  /** The characters `.` does not match. */
  predicate IsLineTerminator(c: char) {
    c == '\n' || c == '\r' || c == '\U{2028}' || c == '\U{2029}'
  }

  /** How many characters `\D*` takes, greedily, from the start of `s`. */
  function NonDigitRun(s: string): (n: nat)
    ensures n <= |s|
    ensures forall i :: 0 <= i < n ==> !IsDigit(s[i])
    ensures n < |s| ==> IsDigit(s[n])
    decreases |s|
  {
    if |s| == 0 || IsDigit(s[0]) then 0 else 1 + NonDigitRun(s[1..])
  }

  /** How many characters `.*` takes, greedily, from the start of `s`. */
  function LineRun(s: string): (n: nat)
    ensures n <= |s|
    ensures forall i :: 0 <= i < n ==> !IsLineTerminator(s[i])
    ensures n < |s| ==> IsLineTerminator(s[n])
    decreases |s|
  {
    if |s| == 0 || IsLineTerminator(s[0]) then 0 else 1 + LineRun(s[1..])
  }

  /** Whether capture groups of lengths `n` and `m` form a match of `/^(\D*)(.*)/` on `s`. */
  ghost predicate IsMatch(s: string, n: nat, m: nat) {
    && n + m <= |s|
    && (forall i :: 0 <= i < n ==> !IsDigit(s[i]))
    && (forall i :: n <= i < n + m ==> !IsLineTerminator(s[i]))
  }

  /** `regex.exec(s)`: the two captured groups, or `None` when there is no match. */
  function Exec(s: string): (r: Option<(string, string)>)
    ensures r.Some? ==> IsMatch(s, |r.value.0|, |r.value.1|)
    ensures r.Some? ==> r.value.0 + r.value.1 == s[..|r.value.0| + |r.value.1|]
    ensures r.Some? && |r.value.0| < |s| ==> IsDigit(s[|r.value.0|])
    ensures r.Some? && |r.value.0| + |r.value.1| < |s| ==> IsLineTerminator(s[|r.value.0| + |r.value.1|])
  {
    var n := NonDigitRun(s);
    var m := LineRun(s[n..]);
    assert s[..n] + s[n..][..m] == s[..n + m];
    Some((s[..n], s[n..][..m]))
  }

  /**
   * The match `Exec` returns is the one a backtracking matcher commits to:
   * the first group is as long as any match allows, and the second as long
   * as any match with that first group allows.
   */
  lemma ExecIsGreedy(s: string, n: nat, m: nat)
    requires IsMatch(s, n, m)
    ensures Exec(s).Some?
    ensures n <= |Exec(s).value.0|
    ensures n == |Exec(s).value.0| ==> m <= |Exec(s).value.1|
  {
  }

  datatype Split = Split(symbol: string, value: string)

  /**
   * `seperateSymbolFromCurrency`. The pattern always matches, so the
   * `{ symbol: '[]', value: '0' }` fallback is never taken.
   */
  function SeparateSymbolFromCurrency(s: string): (r: Split)
    ensures Exec(s).Some?
    ensures |r.symbol| + |r.value| <= |s|
    ensures forall i :: 0 <= i < |r.symbol| ==> !IsDigit(r.symbol[i])
    ensures r.value == [] || IsDigit(r.value[0])
    ensures forall i :: 0 <= i < |r.value| ==> !IsLineTerminator(r.value[i])
    ensures |r.symbol| + |r.value| < |s| ==> IsLineTerminator(s[|r.symbol| + |r.value|])
    ensures |r.symbol| < |s| ==> IsDigit(s[|r.symbol|])
    ensures r.symbol + r.value == s[..|r.symbol| + |r.value|]
    ensures r.symbol + r.value == s <==>
      forall i :: |r.symbol| <= i < |s| ==> !IsLineTerminator(s[i])
  {
    match Exec(s)
    case None => Split("[]", "0")
    case Some((symbol, value)) => Split(symbol, value)
  }
}

=== FILE: categories.dfy ===
/**
 * The category server actions: `getCategories`, `addCategory`,
 * `editCategory` and `deleteCategory`.
 *
 * `deleteCategory` finds the caller's transactions of the category and, in
 * one atomic step, lowers each one's profile by its balance, deletes it, and
 * deletes the category. The per-transaction updates run concurrently in the
 * source; the model applies them one at a time in an arbitrary order and
 * proves the outcome is the same for every order.
 */
module CategoryActions {
  import opened Wrappers
  import opened Validation
  import opened Users
  import opened Ledger

  datatype CategoryForm = CategoryForm(name: string)
  datatype EditForm = EditForm(id: RawId, name: string)

  /** The issues of the category schema. */
  function NameIssues(name: string): (issues: seq<string>)
    ensures issues == [] <==> 1 <= |name| <= 64
    ensures |name| == 0 ==> issues == [NameTooShort]
    ensures |name| > 64 ==> issues == [NameTooLong]
  {
    LengthIssues(name, 1, 64, NameTooShort, NameTooLong)
  }

  /** `getCategories`: the caller's categories, nothing without a session. */
  function GetCategories(st: Store, session: Option<UserId>): (r: map<Id, Category>)
    ensures session.None? ==> r == map[]
    ensures session.Some? ==> forall k :: k in r <==> k in st.categories && st.categories[k].user == session.value
    ensures forall k :: k in r ==> r[k] == st.categories[k]
  {
    if session.None? then map[] else OwnedCategories(st, session.value)
  }

  /** `addCategory`: one new category owned by the caller. */
  function AddCategory(st: Store, session: Option<UserId>, f: CategoryForm): (r: Result<Store>)
    ensures NameIssues(f.name) != [] ==> r == Err(NameIssues(f.name)[0])
    ensures NameIssues(f.name) == [] && session.None? ==> r == Err(InvalidSession)
    ensures r.Ok? <==> NameIssues(f.name) == [] && session.Some?
    ensures r.Ok? ==> r.value.categories == st.categories[st.next := Category(session.value, f.name)]
    ensures r.Ok? ==> r.value.profiles == st.profiles && r.value.transactions == st.transactions
  {
    var reported := FirstIssue(NameIssues(f.name));
    if reported.Some? then Err(reported.value)
    else if session.None? then Err(InvalidSession)
    else Ok(st.(categories := st.categories[st.next := Category(session.value, f.name)], next := st.next + 1))
  }

  /** `editCategory`: renames the caller's matching category; a missing or foreign id changes nothing. */
  function EditCategory(st: Store, session: Option<UserId>, f: EditForm): (r: Result<Store>)
    ensures IdIssues(f.id) + NameIssues(f.name) != [] ==> r == Err((IdIssues(f.id) + NameIssues(f.name))[0])
    ensures f.id.ObjectId? && NameIssues(f.name) == [] && session.None? ==> r == Err(InvalidSession)
    ensures r.Ok? <==> f.id.ObjectId? && NameIssues(f.name) == [] && session.Some?
    ensures r.Ok? ==>
      var id, u := f.id.id, session.value;
      && r.value.profiles == st.profiles
      && r.value.transactions == st.transactions
      && r.value.categories.Keys == st.categories.Keys
      && (forall k :: k in st.categories && k != id ==> r.value.categories[k] == st.categories[k])
      && (id in st.categories && st.categories[id].user == u ==> r.value.categories[id] == Category(u, f.name))
      && (id in st.categories && st.categories[id].user != u ==> r.value.categories[id] == st.categories[id])
  {
    var reported := FirstIssue(IdIssues(f.id) + NameIssues(f.name));
    if reported.Some? then Err(reported.value)
    else if session.None? then Err(InvalidSession)
    else
      var id, u := f.id.id, session.value;
      if id in st.categories && st.categories[id].user == u then
        Ok(st.(categories := st.categories[id := Category(u, f.name)]))
      else Ok(st)
  }

  /** `Category.deleteOne({ _id, user })`. */
  function RemoveCategory(categories: map<Id, Category>, id: Id, u: UserId): (r: map<Id, Category>)
    ensures id in categories && categories[id].user == u ==> r == categories - {id}
    ensures !(id in categories && categories[id].user == u) ==> r == categories
  {
    if id in categories && categories[id].user == u then categories - {id} else categories
  }

  /** A profile of `u` lowered by `amount`; other users' profiles are not matched. */
  function Debit(p: Profile, u: UserId, amount: int): (r: Profile)
    ensures r.user == p.user && r.name == p.name && r.description == p.description
    ensures r.balance == if p.user == u then p.balance - amount else p.balance
  {
    if p.user == u then p.(balance := p.balance - amount) else p
  }

  /**
   * The outcome of `deleteCategory` in closed form: each of the caller's
   * profiles drops by the sum of the removed transactions that reference it,
   * the removed transactions are exactly the caller's of that category, and the
   * category goes if it is the caller's.
   */
  ghost function DeleteCategoryResult(st: Store, session: Option<UserId>, f: IdForm): (r: Result<Store>)
    ensures !f.id.ObjectId? ==> r == Err(InvalidInput)
    ensures f.id.ObjectId? && session.None? ==> r == Err(InvalidSession)
    ensures r.Ok? <==> f.id.ObjectId? && session.Some?
    ensures r.Ok? ==>
      var c, u := f.id.id, session.value;
      && (forall k :: k in r.value.transactions <==>
            k in st.transactions && !(st.transactions[k].category == c && st.transactions[k].user == u))
      && (forall k :: k in r.value.transactions ==> r.value.transactions[k] == st.transactions[k])
      && r.value.profiles.Keys == st.profiles.Keys
      && (forall p :: p in st.profiles && st.profiles[p].user != u ==> r.value.profiles[p] == st.profiles[p])
      && r.value.categories == RemoveCategory(st.categories, c, u)
      && r.value.next == st.next
  {
    var reported := FirstIssue(IdIssues(f.id));
    if reported.Some? then Err(reported.value)
    else if session.None? then Err(InvalidSession)
    else
      var c, u := f.id.id, session.value;
      var removed := Select(st.transactions, Query(ByCategory, c, u));
      Ok(st.(
        profiles := map p | p in st.profiles :: Debit(st.profiles[p], u, Total(removed, p)),
        transactions := Drop(st.transactions, Query(ByCategory, c, u)),
        categories := RemoveCategory(st.categories, c, u)))
  }

  /** The transactions of `found` whose keys are in `done`. */
  ghost function Restrict(found: map<Id, Transaction>, done: set<Id>): (r: map<Id, Transaction>)
    requires done <= found.Keys
    ensures r.Keys == done
    ensures forall k :: k in r ==> r[k] == found[k]
  {
    map k | k in done :: found[k]
  }

  /**
   * `deleteCategory`: the found transactions are reversed and deleted one at
   * a time, each time picking any one not yet handled. Whatever the order, the
   * outcome is the closed form `DeleteCategoryResult`.
   */
  method DeleteCategory(st: Store, session: Option<UserId>, f: IdForm) returns (r: Result<Store>)
    ensures r == DeleteCategoryResult(st, session, f)
  {
    var reported := FirstIssue(IdIssues(f.id));
    if reported.Some? {
      return Err(reported.value);
    }
    if session.None? {
      return Err(InvalidSession);
    }
    var c, u := f.id.id, session.value;
    var q := Query(ByCategory, c, u);
    var found := Select(st.transactions, q);
    var profiles := st.profiles;
    var transactions := st.transactions;
    var pending := found.Keys;
    ghost var done: set<Id> := {};
    while pending != {}
      invariant pending !! done && pending + done == found.Keys
      invariant transactions == st.transactions - done
      invariant profiles.Keys == st.profiles.Keys
      invariant forall p :: p in profiles ==> profiles[p] == Debit(st.profiles[p], u, Total(Restrict(found, done), p))
      decreases pending
    {
      var k :| k in pending;
      var t := found[k];
      ghost var before := Restrict(found, done);
      profiles := IncBalance(profiles, t.profile, u, -t.balance);
      transactions := transactions - {k};
      pending := pending - {k};
      done := done + {k};
      assert Restrict(found, done) == before[k := t];
      forall p | p in profiles
        ensures profiles[p] == Debit(st.profiles[p], u, Total(Restrict(found, done), p))
      {
        TotalInsert(before, k, t, p);
      }
    }
    assert Restrict(found, done) == found;
    assert transactions == Drop(st.transactions, q);
    assert profiles == map p | p in st.profiles :: Debit(st.profiles[p], u, Total(found, p));
    r := Ok(st.(profiles := profiles, transactions := transactions, categories := RemoveCategory(st.categories, c, u)));
  }

  /* ---------- properties ---------- */

  /** Adding or renaming a category touches no balance, and nothing another user sees. */
  lemma AddPreserves(st: Store, session: Option<UserId>, f: CategoryForm)
    requires Valid(st)
    ensures AddCategory(st, session, f).Ok? ==>
      var st' := AddCategory(st, session, f).value;
      Valid(st') && OffsetsKept(st, st') && Isolated(st, st', session.value)
  {
    var r := AddCategory(st, session, f);
    if r.Ok? {
      forall v | v != session.value
        ensures OwnedCategories(r.value, v) == OwnedCategories(st, v)
      {
      }
    }
  }

  lemma EditPreserves(st: Store, session: Option<UserId>, f: EditForm)
    requires Valid(st)
    ensures EditCategory(st, session, f).Ok? ==>
      var st' := EditCategory(st, session, f).value;
      Valid(st') && OffsetsKept(st, st') && Isolated(st, st', session.value)
  {
    var r := EditCategory(st, session, f);
    if r.Ok? {
      forall v | v != session.value
        ensures OwnedCategories(r.value, v) == OwnedCategories(st, v)
      {
      }
    }
  }

  /**
   * Each profile drops by exactly the sum of the removed transactions that
   * referenced it, so every offset is kept; no transaction of the caller in
   * that category remains, and other users see nothing change.
   */
  lemma DeletePreserves(st: Store, session: Option<UserId>, f: IdForm)
    requires Valid(st)
    ensures DeleteCategoryResult(st, session, f).Ok? ==>
      var st' := DeleteCategoryResult(st, session, f).value;
      Valid(st') && OffsetsKept(st, st') && Isolated(st, st', session.value)
    ensures DeleteCategoryResult(st, session, f).Ok? ==>
      var st', removed := DeleteCategoryResult(st, session, f).value,
                          Select(st.transactions, Query(ByCategory, f.id.id, session.value));
      forall p :: p in st.profiles ==> st'.profiles[p].balance == st.profiles[p].balance - Total(removed, p)
    ensures DeleteCategoryResult(st, session, f).Ok? ==>
      var st' := DeleteCategoryResult(st, session, f).value;
      forall k :: k in st'.transactions ==>
        !(st'.transactions[k].category == f.id.id && st'.transactions[k].user == session.value)
  {
    var r := DeleteCategoryResult(st, session, f);
    if r.Ok? {
      var c, u := f.id.id, session.value;
      DeleteShape(st, session, f);
      DeleteDebits(st, u, c, r.value);
      DeleteKeepsOffsets(st, u, c, r.value);
      DeleteIsolated(st, u, c, r.value);
    }
  }

  /** The closed form of a successful `deleteCategory` of `c` by `u`. */
  ghost predicate DeletedTo(st: Store, u: UserId, c: Id, st': Store) {
    var q := Query(ByCategory, c, u);
    && st'.transactions == Drop(st.transactions, q)
    && st'.profiles == (map p | p in st.profiles :: Debit(st.profiles[p], u, Total(Select(st.transactions, q), p)))
    && st'.categories == RemoveCategory(st.categories, c, u)
    && st'.next == st.next
  }

  lemma DeleteShape(st: Store, session: Option<UserId>, f: IdForm)
    requires DeleteCategoryResult(st, session, f).Ok?
    ensures DeletedTo(st, session.value, f.id.id, DeleteCategoryResult(st, session, f).value)
  {
  }

  lemma DeleteDebits(st: Store, u: UserId, c: Id, st': Store)
    requires Valid(st) && DeletedTo(st, u, c, st')
    ensures forall p :: p in st.profiles ==>
      st'.profiles[p].balance == st.profiles[p].balance - Total(Select(st.transactions, Query(ByCategory, c, u)), p)
  {
    var removed := Select(st.transactions, Query(ByCategory, c, u));
    forall p | p in st.profiles
      ensures st'.profiles[p].balance == st.profiles[p].balance - Total(removed, p)
    {
      if st.profiles[p].user != u {
        forall k | k in removed
          ensures removed[k].profile != p
        {
          assert Resolves(st.profiles, st.transactions[k]);
        }
        TotalUnreferenced(removed, p);
      }
    }
  }

  lemma DeleteKeepsOffsets(st: Store, u: UserId, c: Id, st': Store)
    requires Valid(st) && DeletedTo(st, u, c, st')
    ensures Valid(st') && OffsetsKept(st, st')
  {
    var q := Query(ByCategory, c, u);
    DeleteDebits(st, u, c, st');
    forall p | p in st.profiles && p in st'.profiles
      ensures Offset(st', p) == Offset(st, p)
    {
      TotalSplit(st.transactions, q, p);
    }
    forall k | k in st'.transactions
      ensures Resolves(st'.profiles, st'.transactions[k])
    {
      assert Resolves(st.profiles, st.transactions[k]);
    }
  }

  lemma DeleteIsolated(st: Store, u: UserId, c: Id, st': Store)
    requires DeletedTo(st, u, c, st')
    ensures Isolated(st, st', u)
  {
    forall v | v != u
      ensures OwnedProfiles(st', v) == OwnedProfiles(st, v)
      ensures OwnedTransactions(st', v) == OwnedTransactions(st, v)
      ensures OwnedCategories(st', v) == OwnedCategories(st, v)
    {
      forall p | p in st.profiles && st.profiles[p].user == v
        ensures st'.profiles[p] == st.profiles[p]
      {
      }
      assert OwnedProfiles(st', v) == OwnedProfiles(st, v);
      assert OwnedTransactions(st', v) == OwnedTransactions(st, v);
      assert OwnedCategories(st', v) == OwnedCategories(st, v);
    }
  }

  /**
   * With no transaction of the caller referencing the id, deleting it removes
   * nothing but the category itself (if it is the caller's) and changes no balance.
   */
  lemma DeleteUnreferencedTouchesNoBalance(st: Store, session: Option<UserId>, f: IdForm)
    requires f.id.ObjectId? && session.Some?
    requires forall k :: k in st.transactions ==>
      !(st.transactions[k].category == f.id.id && st.transactions[k].user == session.value)
    ensures DeleteCategoryResult(st, session, f)
      == Ok(st.(categories := RemoveCategory(st.categories, f.id.id, session.value)))
  {
    var c, u := f.id.id, session.value;
    var q := Query(ByCategory, c, u);
    var removed := Select(st.transactions, q);
    assert removed == map[];
    var st' := DeleteCategoryResult(st, session, f).value;
    assert st'.transactions == st.transactions;
    forall p | p in st.profiles
      ensures st'.profiles[p] == st.profiles[p]
    {
      assert Total(removed, p) == 0;
    }
    assert st'.profiles == st.profiles;
  }

  /**
   * The cascade is keyed on the id alone: it removes and reverses the same
   * transactions whether or not a category with that id exists, since no
   * action ever checks a transaction's category.
   */
  lemma CascadeIgnoresCategories(st: Store, session: Option<UserId>, f: IdForm, cats: map<Id, Category>)
    requires f.id.ObjectId? && session.Some?
    ensures DeleteCategoryResult(st.(categories := cats), session, f).value.transactions
            == DeleteCategoryResult(st, session, f).value.transactions
    ensures DeleteCategoryResult(st.(categories := cats), session, f).value.profiles
            == DeleteCategoryResult(st, session, f).value.profiles
  {
  }

  /** A malformed `_id` is what an edit reports, whatever the name, the session and the store hold. */
  lemma EditReportsMalformedId(st: Store, session: Option<UserId>, f: EditForm)
    requires !f.id.ObjectId?
    ensures EditCategory(st, session, f) == Err(InvalidInput)
  {
    FirstIssueOfConcat(IdIssues(f.id), NameIssues(f.name));
  }
}

=== FILE: ledger.dfy ===
/**
 * The store the server actions work on: three owner-scoped collections
 * (profiles, categories, transactions), each keyed by the document's `_id`.
 *
 * A profile's stored `balance` is its opening balance plus the balances of
 * the transactions that reference it. The quantity every transaction and
 * category action must keep is therefore the profile's offset: its stored
 * balance minus the sum of its transactions' balances.
 */
module Ledger {
  import opened Wrappers
  import opened Users

  /** A document `_id`. ObjectIds are never reused, modelled by a counter in the store. */
  type Id = nat

  datatype Profile = Profile(user: UserId, name: string, description: string, balance: int)
  datatype Category = Category(user: UserId, name: string)
  datatype Transaction = Transaction(
    user: UserId, profile: Id, category: Id, description: string, balance: int, date: string)

  /** The three collections, and the next `_id` the database will hand out. */
  datatype Store = Store(
    profiles: map<Id, Profile>,
    categories: map<Id, Category>,
    transactions: map<Id, Transaction>,
    next: Id)

  const Empty: Store := Store(map[], map[], map[], 0)

  /** A transaction's profile exists and belongs to the transaction's owner. */
  ghost predicate Resolves(profiles: map<Id, Profile>, t: Transaction) {
    t.profile in profiles && profiles[t.profile].user == t.user
  }

  /**
   * The invariant of the stores the actions produce: every `_id` was handed
   * out before `next`, and every transaction's profile resolves under its owner.
   * (Categories are never checked by the actions, so a transaction's category may dangle.)
   */
  ghost predicate Valid(st: Store) {
    && (forall k :: k in st.profiles ==> k < st.next)
    && (forall k :: k in st.categories ==> k < st.next)
    && (forall k :: k in st.transactions ==> k < st.next)
    && (forall k :: k in st.transactions ==> Resolves(st.profiles, st.transactions[k]))
  }

  lemma EmptyIsValid()
    ensures Valid(Empty)
  {
  }

  /* ---------- owner-scoped lookups: `findOne({ _id, user })` ---------- */

  function FindProfile(st: Store, id: Id, u: UserId): (r: Option<Profile>)
    ensures r.Some? <==> id in st.profiles && st.profiles[id].user == u
    ensures r.Some? ==> r.value == st.profiles[id]
  {
    if id in st.profiles && st.profiles[id].user == u then Some(st.profiles[id]) else None
  }

  function FindTransaction(st: Store, id: Id, u: UserId): (r: Option<Transaction>)
    ensures r.Some? <==> id in st.transactions && st.transactions[id].user == u
    ensures r.Some? ==> r.value == st.transactions[id]
  {
    if id in st.transactions && st.transactions[id].user == u then Some(st.transactions[id]) else None
  }

  /**
   * `Profile.updateOne({ _id: id, user: u }, { $inc: { balance: delta } })`:
   * the matching profile's balance moves by `delta`; a missing or foreign id matches nothing.
   */
  function IncBalance(profiles: map<Id, Profile>, id: Id, u: UserId, delta: int): (r: map<Id, Profile>)
    ensures r.Keys == profiles.Keys
    ensures forall k :: k in r && k != id ==> r[k] == profiles[k]
    ensures id in profiles && profiles[id].user == u ==>
      r[id] == profiles[id].(balance := profiles[id].balance + delta)
    ensures id in profiles && profiles[id].user != u ==> r[id] == profiles[id]
  {
    if id in profiles && profiles[id].user == u then
      profiles[id := profiles[id].(balance := profiles[id].balance + delta)]
    else
      profiles
  }

  /** Two increments of the same profile compose into one. */
  lemma IncBalanceTwice(profiles: map<Id, Profile>, id: Id, u: UserId, a: int, b: int)
    ensures IncBalance(IncBalance(profiles, id, u, a), id, u, b) == IncBalance(profiles, id, u, a + b)
  {
    if id in profiles && profiles[id].user == u {
      var p := profiles[id];
      assert p.(balance := p.balance + a).(balance := p.balance + a + b) == p.(balance := p.balance + (a + b));
    }
  }

  /** The filter documents `{ profile: id, user }` and `{ category: id, user }`. */
  datatype Field = ByProfile | ByCategory
  datatype Query = Query(field: Field, id: Id, user: UserId)

  predicate Matches(q: Query, t: Transaction) {
    && t.user == q.user
    && (match q.field
        case ByProfile => t.profile == q.id
        case ByCategory => t.category == q.id)
  }

  /** `Transaction.find(q)`: the transactions the filter matches. */
  function Select(txs: map<Id, Transaction>, q: Query): (r: map<Id, Transaction>)
    ensures forall k :: k in r <==> k in txs && Matches(q, txs[k])
    ensures forall k :: k in r ==> r[k] == txs[k]
  {
    map k | k in txs && Matches(q, txs[k]) :: txs[k]
  }

  /** `Transaction.deleteMany(q)`: the transactions the filter leaves. */
  function Drop(txs: map<Id, Transaction>, q: Query): (r: map<Id, Transaction>)
    ensures forall k :: k in r <==> k in txs && !Matches(q, txs[k])
    ensures forall k :: k in r ==> r[k] == txs[k]
  {
    map k | k in txs && !Matches(q, txs[k]) :: txs[k]
  }

  /* ---------- the sum of a profile's transactions ---------- */

  /** Some element of a non-empty set; the same one for the same set. */
  ghost function Pick(s: set<Id>): (k: Id)
    requires s != {}
    ensures k in s
  {
    var k :| k in s; k
  }

  /** What a transaction contributes to profile `p`. */
  function Share(t: Transaction, p: Id): int {
    if t.profile == p then t.balance else 0
  }

  /** The sum of the balances of the transactions in `txs` that reference profile `p`. */
  ghost function Total(txs: map<Id, Transaction>, p: Id): int
    decreases |txs|
  {
    if txs == map[] then 0
    else
      var k := Pick(txs.Keys);
      assert (txs - {k}).Keys == txs.Keys - {k};
      Share(txs[k], p) + Total(txs - {k}, p)
  }

  /** The sum does not depend on which transaction is taken out first. */
  lemma {:induction false} TotalRemove(txs: map<Id, Transaction>, k: Id, p: Id)
    requires k in txs
    ensures Total(txs, p) == Share(txs[k], p) + Total(txs - {k}, p)
    decreases |txs|
  {
    var j := Pick(txs.Keys);
    if j != k {
      var rest := txs - {j};
      assert rest.Keys == txs.Keys - {j};
      assert k in rest;
      TotalRemove(rest, k, p);
      var without := txs - {k};
      assert without.Keys == txs.Keys - {k};
      assert j in without;
      TotalRemove(without, j, p);
      assert rest - {k} == without - {j};
    }
  }

  lemma TotalInsert(txs: map<Id, Transaction>, k: Id, t: Transaction, p: Id)
    requires k !in txs
    ensures Total(txs[k := t], p) == Share(t, p) + Total(txs, p)
  {
    TotalRemove(txs[k := t], k, p);
    assert txs[k := t] - {k} == txs;
  }

  lemma TotalUpdate(txs: map<Id, Transaction>, k: Id, t: Transaction, p: Id)
    requires k in txs
    ensures Total(txs[k := t], p) == Total(txs, p) - Share(txs[k], p) + Share(t, p)
  {
    TotalRemove(txs[k := t], k, p);
    TotalRemove(txs, k, p);
    assert txs[k := t] - {k} == txs - {k};
  }

  /** A profile no transaction references has nothing to sum. */
  lemma {:induction false} TotalUnreferenced(txs: map<Id, Transaction>, p: Id)
    requires forall k :: k in txs ==> txs[k].profile != p
    ensures Total(txs, p) == 0
    decreases |txs|
  {
    if txs != map[] {
      var k := Pick(txs.Keys);
      assert (txs - {k}).Keys == txs.Keys - {k};
      TotalUnreferenced(txs - {k}, p);
    }
  }

  /** A filter splits the sum into the part it selects and the part it drops. */
  lemma {:induction false} TotalSplit(txs: map<Id, Transaction>, q: Query, p: Id)
    ensures Total(txs, p) == Total(Select(txs, q), p) + Total(Drop(txs, q), p)
    decreases |txs|
  {
    if txs != map[] {
      var k := Pick(txs.Keys);
      var rest := txs - {k};
      assert rest.Keys == txs.Keys - {k};
      TotalSplit(rest, q, p);
      if Matches(q, txs[k]) {
        assert Select(txs, q) == Select(rest, q)[k := txs[k]];
        assert Drop(txs, q) == Drop(rest, q);
        TotalInsert(Select(rest, q), k, txs[k], p);
      } else {
        assert Select(txs, q) == Select(rest, q);
        assert Drop(txs, q) == Drop(rest, q)[k := txs[k]];
        TotalInsert(Drop(rest, q), k, txs[k], p);
      }
    }
  }

  /* ---------- offsets ---------- */

  /** A profile's stored balance minus the sum of the transactions that reference it. */
  ghost function Offset(st: Store, p: Id): int
    requires p in st.profiles
  {
    st.profiles[p].balance - Total(st.transactions, p)
  }

  /** Every profile present before and after keeps its offset. */
  ghost predicate OffsetsKept(before: Store, after: Store) {
    forall p :: p in before.profiles && p in after.profiles ==> Offset(after, p) == Offset(before, p)
  }

  /* ---------- what one user can see: `find({ user })` ---------- */

  function OwnedProfiles(st: Store, u: UserId): (r: map<Id, Profile>)
    ensures forall k :: k in r <==> k in st.profiles && st.profiles[k].user == u
    ensures forall k :: k in r ==> r[k] == st.profiles[k]
  {
    map k | k in st.profiles && st.profiles[k].user == u :: st.profiles[k]
  }

  function OwnedCategories(st: Store, u: UserId): (r: map<Id, Category>)
    ensures forall k :: k in r <==> k in st.categories && st.categories[k].user == u
    ensures forall k :: k in r ==> r[k] == st.categories[k]
  {
    map k | k in st.categories && st.categories[k].user == u :: st.categories[k]
  }

  function OwnedTransactions(st: Store, u: UserId): (r: map<Id, Transaction>)
    ensures forall k :: k in r <==> k in st.transactions && st.transactions[k].user == u
    ensures forall k :: k in r ==> r[k] == st.transactions[k]
  {
    map k | k in st.transactions && st.transactions[k].user == u :: st.transactions[k]
  }

  /** A step taken by user `u` leaves everything every other user can see as it was. */
  ghost predicate Isolated(before: Store, after: Store, u: UserId) {
    forall v :: v != u ==>
      && OwnedProfiles(after, v) == OwnedProfiles(before, v)
      && OwnedCategories(after, v) == OwnedCategories(before, v)
      && OwnedTransactions(after, v) == OwnedTransactions(before, v)
  }
}

=== FILE: ledger_run.dfy ===
/**
 * Runs of the ledger: any sequence of the transaction, profile and category
 * actions, each by whichever session issued it, starting from the empty store.
 */
module LedgerRun {
  import opened Wrappers
  import opened Validation
  import opened Users
  import opened Ledger
  import opened ActionResults
  import T = TransactionActions
  import P = ProfileActions
  import C = CategoryActions

  /** One request to a mutating action. `sameReference` is the outcome of the `===` test of an edit. */
  datatype Command =
    | AddTransaction(form: T.TransactionForm)
    | EditTransaction(edit: T.EditForm, sameReference: bool)
    | DeleteTransaction(target: IdForm)
    | AddProfile(profile: P.ProfileForm)
    | EditProfile(profileEdit: P.EditForm)
    | DeleteProfile(target: IdForm)
    | AddCategory(category: C.CategoryForm)
    | EditCategory(categoryEdit: C.EditForm)
    | DeleteCategory(target: IdForm)

  datatype Request = Request(session: Option<UserId>, command: Command)

  /** The store after one request; a request the action refuses leaves the store as it was. */
  ghost function Step(st: Store, r: Request): Result<Store> {
    match r.command
    case AddTransaction(f) => T.AddTransaction(st, r.session, f)
    case EditTransaction(f, same) => T.EditTransaction(st, r.session, f, same)
    case DeleteTransaction(f) => T.DeleteTransaction(st, r.session, f)
    case AddProfile(f) => P.AddProfile(st, r.session, f)
    case EditProfile(f) => P.EditProfile(st, r.session, f)
    case DeleteProfile(f) => P.DeleteProfile(st, r.session, f)
    case AddCategory(f) => C.AddCategory(st, r.session, f)
    case EditCategory(f) => C.EditCategory(st, r.session, f)
    case DeleteCategory(f) => C.DeleteCategoryResult(st, r.session, f)
  }

  ghost function Next(st: Store, r: Request): Store {
    var out := Step(st, r);
    if out.Ok? then out.value else st
  }

  ghost function Run(st: Store, rs: seq<Request>): Store
    decreases |rs|
  {
    if rs == [] then st else Run(Next(st, rs[0]), rs[1..])
  }

  /** Whether a request can move a profile's offset: only `editProfile` can. */
  predicate SetsBalance(r: Request) {
    r.command.EditProfile?
  }

  /**
   * Every request keeps the store valid and leaves other users' data alone;
   * every request other than `editProfile` keeps every surviving profile's offset.
   */
  lemma StepPreserves(st: Store, r: Request)
    requires Valid(st)
    ensures Valid(Next(st, r))
    ensures !SetsBalance(r) ==> OffsetsKept(st, Next(st, r))
    ensures Step(st, r).Ok? ==> Isolated(st, Next(st, r), r.session.value)
  {
    match r.command
    case AddTransaction(f) => T.AddPreserves(st, r.session, f);
    case EditTransaction(f, same) => T.EditPreserves(st, r.session, f, same);
    case DeleteTransaction(f) => T.DeletePreserves(st, r.session, f);
    case AddProfile(f) => P.AddPreserves(st, r.session, f);
    case EditProfile(f) => P.EditPreserves(st, r.session, f);
    case DeleteProfile(f) => P.DeletePreserves(st, r.session, f);
    case AddCategory(f) => C.AddPreserves(st, r.session, f);
    case EditCategory(f) => C.EditPreserves(st, r.session, f);
    case DeleteCategory(f) => C.DeletePreserves(st, r.session, f);
  }

  /**
   * From the empty store, every store reached is valid; and over a run
   * without `editProfile`, a profile present at both ends keeps its offset.
   */
  lemma {:induction false} RunPreserves(st: Store, rs: seq<Request>)
    requires Valid(st)
    ensures Valid(Run(st, rs))
    ensures (forall i :: 0 <= i < |rs| ==> !SetsBalance(rs[i])) ==>
      forall p :: p in Run(st, rs).profiles && Survives(st, rs, p) ==>
        Offset(Run(st, rs), p) == Offset(st, p)
    decreases |rs|
  {
    if rs != [] {
      var mid := Next(st, rs[0]);
      StepPreserves(st, rs[0]);
      RunPreserves(mid, rs[1..]);
      if forall i :: 0 <= i < |rs| ==> !SetsBalance(rs[i]) {
        assert !SetsBalance(rs[0]);
        forall i | 0 <= i < |rs[1..]|
          ensures !SetsBalance(rs[1..][i])
        {
          assert rs[1..][i] == rs[i + 1];
        }
        forall p | p in Run(st, rs).profiles && Survives(st, rs, p)
          ensures Offset(Run(st, rs), p) == Offset(st, p)
        {
          assert p in mid.profiles;
          assert Offset(Run(mid, rs[1..]), p) == Offset(mid, p);
        }
      }
    }
  }

  /**
   * The form that sent a request closes exactly when the action accepted it;
   * a form left open means the request was refused and the store is as it was.
   */
  lemma OpenFormMeansNoWrite(st: Store, r: Request)
    ensures Closes(Respond(Step(st, r))) <==> Step(st, r).Ok?
    ensures !Closes(Respond(Step(st, r))) ==> Next(st, r) == st
    ensures Closes(Respond(Step(st, r))) ==> Next(st, r) == Step(st, r).value
  {
  }

  /** Every store a run of requests reaches from the empty store is valid. */
  lemma RunFromEmpty(rs: seq<Request>)
    ensures Valid(Run(Empty, rs))
  {
    EmptyIsValid();
    RunPreserves(Empty, rs);
  }

  /** Profile `p` is present in every store of the run. */
  ghost predicate Survives(st: Store, rs: seq<Request>, p: Id)
    decreases |rs|
  {
    p in st.profiles && (rs != [] ==> Survives(Next(st, rs[0]), rs[1..], p))
  }

  /* ---------- concrete runs ---------- */

  const Alice: UserId := 1
  const Date: string := "2024-01-01T00:00[UTC]"

  /** A wallet of 100 (profile 0), a category (1), and a debit of 30 from the wallet (transaction 2). */
  function WalletWithDebit(): Store {
    var s1 := P.AddProfile(Empty, Some(Alice), P.ProfileForm("Wallet", "", Number(100))).value;
    var s2 := C.AddCategory(s1, Some(Alice), C.CategoryForm("Food")).value;
    T.AddTransaction(s2, Some(Alice), T.TransactionForm(ObjectId(0), ObjectId(1), "", Number(-30), Zoned(Date))).value
  }

  /** The debit lowers the wallet to 70; edited to -50 it leaves 50; deleted it restores 100. */
  lemma DebitEditedAndDeleted()
    ensures WalletWithDebit().profiles[0].balance == 70
    ensures T.EditTransaction(WalletWithDebit(), Some(Alice),
              T.EditForm(ObjectId(2), T.TransactionForm(ObjectId(0), ObjectId(1), "", Number(-50), Zoned(Date))),
              false).value.profiles[0].balance == 50
    ensures T.DeleteTransaction(WalletWithDebit(), Some(Alice), IdForm(ObjectId(2))).value.profiles[0].balance == 100
  {
  }

  /** A savings profile of 0 (profile 3) is added, and the debit is moved to it from the wallet. */
  lemma DebitMovedToSavings()
    ensures
      var s1 := P.AddProfile(WalletWithDebit(), Some(Alice), P.ProfileForm("Savings", "", Number(0))).value;
      var s2 := T.EditTransaction(s1, Some(Alice),
                  T.EditForm(ObjectId(2), T.TransactionForm(ObjectId(3), ObjectId(1), "", Number(-30), Zoned(Date))),
                  false).value;
      s2.profiles[0].balance == 100 && s2.profiles[3].balance == -30
  {
  }

  /** Debits of 10 and 5 in one category lower the wallet to 85; deleting the category restores 100. */
  lemma CategoryDeleteReversesDebits()
    ensures
      var s1 := P.AddProfile(Empty, Some(Alice), P.ProfileForm("Wallet", "", Number(100))).value;
      var s2 := C.AddCategory(s1, Some(Alice), C.CategoryForm("Food")).value;
      var s3 := T.AddTransaction(s2, Some(Alice), T.TransactionForm(ObjectId(0), ObjectId(1), "", Number(-10), Zoned(Date))).value;
      var s4 := T.AddTransaction(s3, Some(Alice), T.TransactionForm(ObjectId(0), ObjectId(1), "", Number(-5), Zoned(Date))).value;
      var s5 := C.DeleteCategoryResult(s4, Some(Alice), IdForm(ObjectId(1))).value;
      s4.profiles[0].balance == 85 && s5.profiles[0].balance == 100 && s5.transactions == map[]
  {
    var s1 := P.AddProfile(Empty, Some(Alice), P.ProfileForm("Wallet", "", Number(100))).value;
    var s2 := C.AddCategory(s1, Some(Alice), C.CategoryForm("Food")).value;
    var s3 := T.AddTransaction(s2, Some(Alice), T.TransactionForm(ObjectId(0), ObjectId(1), "", Number(-10), Zoned(Date))).value;
    var s4 := T.AddTransaction(s3, Some(Alice), T.TransactionForm(ObjectId(0), ObjectId(1), "", Number(-5), Zoned(Date))).value;
    var removed := Select(s4.transactions, Query(ByCategory, 1, Alice));
    assert removed == s4.transactions;
    TotalRemove(removed, 2, 0);
    assert removed - {2} == map[3 := s4.transactions[3]];
    TotalRemove(map[3 := s4.transactions[3]], 3, 0);
    assert map[3 := s4.transactions[3]] - {3} == map[];
  }
}

=== FILE: middleware.dfy ===
/**
 * The routing decision of `middleware`: from the session cookie and the
 * request path, whether to pass the request on or redirect it, whether to
 * refresh the session, and whether to clear the session cookie.
 *
 * Decrypting and verifying the cookie is abstract: `session` is the payload
 * `getSession` yields (`None` when the cookie is missing or invalid), and its
 * `user` is what `getUserSession` reads from it.
 */
module Middleware {
  import opened Wrappers
  import opened Users

  datatype Payload = Payload(user: Option<UserId>)
  datatype Response = Next | RedirectTo(path: string)
  datatype Decision = Decision(response: Response, refresh: bool, clear: bool)

  const LoginPath: string := "/auth/login"
  const RegisterPath: string := "/auth/register"
  const ProfilesPath: string := "/profiles"

  /** `String.prototype.startsWith`. */
  predicate StartsWith(s: string, prefix: string) {
    |prefix| <= |s| && s[..|prefix|] == prefix
  }

  /** A session whose payload names a user. */
  predicate SignedIn(session: Option<Payload>) {
    session.Some? && session.value.user.Some?
  }

  /** A path under the login or register pages. */
  predicate AuthPage(path: string) {
    StartsWith(path, LoginPath) || StartsWith(path, RegisterPath)
  }

  function Route(session: Option<Payload>, path: string): (d: Decision)
    ensures SignedIn(session) && AuthPage(path) ==> d.response == RedirectTo(ProfilesPath)
    ensures SignedIn(session) && !AuthPage(path) ==> d.response == Next
    ensures !SignedIn(session) && StartsWith(path, LoginPath) ==> d.response == Next
    ensures !SignedIn(session) && !StartsWith(path, LoginPath) ==> d.response == RedirectTo(LoginPath)
    ensures d.clear <==> !SignedIn(session)
    ensures d.refresh <==> SignedIn(session) && d.response == Next
  {
    if session.Some? && session.value.user.Some? then
      if StartsWith(path, LoginPath) || StartsWith(path, RegisterPath) then
        Decision(RedirectTo(ProfilesPath), false, false)
      else
        Decision(Next, true, false)
    else
      Decision(if StartsWith(path, LoginPath) then Next else RedirectTo(LoginPath), false, true)
  }

  /** Following a redirect of the middleware, with the same session, is passed on: no redirect loop. */
  lemma RedirectsSettle(session: Option<Payload>, path: string)
    ensures Route(session, path).response.RedirectTo? ==>
      Route(session, Route(session, path).response.path).response == Next
  {
    if SignedIn(session) {
      assert !StartsWith(ProfilesPath, LoginPath) by { assert ProfilesPath[1] != LoginPath[1]; }
      assert !StartsWith(ProfilesPath, RegisterPath) by { assert ProfilesPath[1] != RegisterPath[1]; }
    } else {
      assert StartsWith(LoginPath, LoginPath);
    }
  }

  /** Signed out, a register path is redirected to the login page. */
  lemma RegisterRedirectsSignedOut(session: Option<Payload>, path: string)
    requires !SignedIn(session) && StartsWith(path, RegisterPath)
    ensures Route(session, path).response == RedirectTo(LoginPath)
  {
    assert path[6] == 'r' && LoginPath[6] == 'l';
  }

  /**
   * As written, no session is ever let through to a register path: a signed-in
   * user is sent to the profiles page, a signed-out one to the login page.
   */
  lemma RegisterNeverServed(session: Option<Payload>, path: string)
    requires StartsWith(path, RegisterPath)
    ensures Route(session, path).response != Next
  {
    if !SignedIn(session) {
      RegisterRedirectsSignedOut(session, path);
    }
  }

  /**
   * The routing the login page's link to the register page relies on: signed
   * out, both auth pages are passed through. Everything else is as in `Route`.
   */
  function IntendedRoute(session: Option<Payload>, path: string): (d: Decision)
    ensures SignedIn(session) && AuthPage(path) ==> d.response == RedirectTo(ProfilesPath)
    ensures SignedIn(session) && !AuthPage(path) ==> d.response == Next
    ensures !SignedIn(session) && AuthPage(path) ==> d.response == Next
    ensures !SignedIn(session) && !AuthPage(path) ==> d.response == RedirectTo(LoginPath)
    ensures d.clear <==> !SignedIn(session)
    ensures d.refresh <==> SignedIn(session) && d.response == Next
  {
    if SignedIn(session) then Route(session, path)
    else Decision(if AuthPage(path) then Next else RedirectTo(LoginPath), false, true)
  }

  /** With the intended routing a signed-out visitor reaches the register page. */
  lemma IntendedServesRegister(session: Option<Payload>, path: string)
    requires !SignedIn(session) && StartsWith(path, RegisterPath)
    ensures IntendedRoute(session, path).response == Next
  {
  }

  /** The intended routing differs from the written one only on register paths. */
  lemma IntendedDiffersOnlyOnRegister(session: Option<Payload>, path: string)
    requires !StartsWith(path, RegisterPath)
    ensures IntendedRoute(session, path) == Route(session, path)
  {
  }

  /** The intended routing has no redirect loop either. */
  lemma IntendedRedirectsSettle(session: Option<Payload>, path: string)
    ensures IntendedRoute(session, path).response.RedirectTo? ==>
      IntendedRoute(session, IntendedRoute(session, path).response.path).response == Next
  {
    if SignedIn(session) {
      RedirectsSettle(session, path);
    } else {
      assert StartsWith(LoginPath, LoginPath);
    }
  }
}

=== FILE: profiles.dfy ===
/**
 * The profile server actions: `getProfiles`, `addProfile`, `editProfile`
 * and `deleteProfile`.
 *
 * A profile is created with the balance the form supplies (its opening
 * balance), and `editProfile` overwrites that balance directly, so editing a
 * profile is the one action that moves a profile's offset.
 */
module ProfileActions {
  import opened Wrappers
  import opened Validation
  import opened Users
  import opened Ledger

  const DescriptionTooLong: string := "Description must not exceed 64 characters long."

  datatype ProfileForm = ProfileForm(name: string, description: string, balance: RawNumber)
  datatype EditForm = EditForm(id: RawId, data: ProfileForm)

  /** The issues of the profile schema, in key order. */
  function FormIssues(f: ProfileForm): (issues: seq<string>)
    ensures issues == [] <==> 1 <= |f.name| <= 64 && |f.description| <= 64 && f.balance.Number?
    ensures |f.name| == 0 ==> issues[0] == NameTooShort
    ensures |f.name| > 64 ==> issues[0] == NameTooLong
    ensures 1 <= |f.name| <= 64 && |f.description| > 64 ==> issues[0] == DescriptionTooLong
    ensures 1 <= |f.name| <= 64 && |f.description| <= 64 && !f.balance.Number? ==> issues == [BalanceNotNumber]
  {
    LengthIssues(f.name, 1, 64, NameTooShort, NameTooLong)
    + MaxLengthIssues(f.description, 64, DescriptionTooLong)
    + NumberIssues(f.balance, BalanceNotNumber)
  }

  /** The profile a validated form describes, owned by `u`. */
  function Entry(u: UserId, f: ProfileForm): Profile
    requires FormIssues(f) == []
  {
    Profile(u, f.name, f.description, f.balance.value)
  }

  /** `getProfiles`: the caller's profiles, nothing without a session. */
  function GetProfiles(st: Store, session: Option<UserId>): (r: map<Id, Profile>)
    ensures session.None? ==> r == map[]
    ensures session.Some? ==> forall k :: k in r <==> k in st.profiles && st.profiles[k].user == session.value
    ensures forall k :: k in r ==> r[k] == st.profiles[k]
  {
    if session.None? then map[] else OwnedProfiles(st, session.value)
  }

  /** `addProfile`: one new profile owned by the caller, holding the supplied balance. */
  function AddProfile(st: Store, session: Option<UserId>, f: ProfileForm): (r: Result<Store>)
    ensures FormIssues(f) != [] ==> r == Err(FormIssues(f)[0])
    ensures FormIssues(f) == [] && session.None? ==> r == Err(InvalidSession)
    ensures r.Ok? <==> FormIssues(f) == [] && session.Some?
    ensures r.Ok? ==>
      && r.value.profiles.Keys == st.profiles.Keys + {st.next}
      && r.value.profiles[st.next].user == session.value
      && r.value.profiles[st.next].name == f.name
      && r.value.profiles[st.next].description == f.description
      && r.value.profiles[st.next].balance == f.balance.value
      && (forall k :: k in st.profiles && k != st.next ==> r.value.profiles[k] == st.profiles[k])
      && r.value.transactions == st.transactions
      && r.value.categories == st.categories
  {
    var reported := FirstIssue(FormIssues(f));
    if reported.Some? then Err(reported.value)
    else if session.None? then Err(InvalidSession)
    else Ok(st.(profiles := st.profiles[st.next := Entry(session.value, f)], next := st.next + 1))
  }

  /**
   * `editProfile`: `Profile.updateOne({ _id, user }, data)` replaces name,
   * description and balance of the caller's matching profile. A missing or
   * foreign id matches nothing, and the action still answers ok.
   */
  function EditProfile(st: Store, session: Option<UserId>, f: EditForm): (r: Result<Store>)
    ensures IdIssues(f.id) + FormIssues(f.data) != [] ==> r == Err((IdIssues(f.id) + FormIssues(f.data))[0])
    ensures f.id.ObjectId? && FormIssues(f.data) == [] && session.None? ==> r == Err(InvalidSession)
    ensures r.Ok? <==> f.id.ObjectId? && FormIssues(f.data) == [] && session.Some?
    ensures r.Ok? && FindProfile(st, f.id.id, session.value).None? ==> r.value == st
    ensures r.Ok? && FindProfile(st, f.id.id, session.value).Some? ==>
      && r.value.profiles == st.profiles[f.id.id := Entry(session.value, f.data)]
      && r.value.transactions == st.transactions
      && r.value.categories == st.categories
      && r.value.next == st.next
  {
    var reported := FirstIssue(IdIssues(f.id) + FormIssues(f.data));
    if reported.Some? then Err(reported.value)
    else if session.None? then Err(InvalidSession)
    else
      var u := session.value;
      if FindProfile(st, f.id.id, u).None? then Ok(st)
      else Ok(st.(profiles := st.profiles[f.id.id := Entry(u, f.data)]))
  }

  /**
   * `deleteProfile`: in one atomic step, `Transaction.deleteMany({ profile, user })`
   * and `Profile.deleteOne({ _id, user })`. No balance is touched: the profile goes.
   */
  function DeleteProfile(st: Store, session: Option<UserId>, f: IdForm): (r: Result<Store>)
    ensures !f.id.ObjectId? ==> r == Err(InvalidInput)
    ensures f.id.ObjectId? && session.None? ==> r == Err(InvalidSession)
    ensures r.Ok? <==> f.id.ObjectId? && session.Some?
    ensures r.Ok? ==>
      var id, u := f.id.id, session.value;
      && (forall k :: k in r.value.transactions ==>
            k in st.transactions && r.value.transactions[k] == st.transactions[k]
            && !(st.transactions[k].profile == id && st.transactions[k].user == u))
      && (forall k :: k in st.transactions && (st.transactions[k].profile != id || st.transactions[k].user != u) ==>
            k in r.value.transactions)
      && (FindProfile(st, id, u).Some? ==> r.value.profiles == st.profiles - {id})
      && (FindProfile(st, id, u).None? ==> r.value.profiles == st.profiles)
      && r.value.categories == st.categories
      && r.value.next == st.next
  {
    var reported := FirstIssue(IdIssues(f.id));
    if reported.Some? then Err(reported.value)
    else if session.None? then Err(InvalidSession)
    else
      var u, id := session.value, f.id.id;
      Ok(st.(
        transactions := Drop(st.transactions, Query(ByProfile, id, u)),
        profiles := if FindProfile(st, id, u).Some? then st.profiles - {id} else st.profiles))
  }

  /* ---------- properties ---------- */

  /** A new profile's offset is its opening balance; nothing else moves. */
  lemma AddPreserves(st: Store, session: Option<UserId>, f: ProfileForm)
    requires Valid(st)
    ensures AddProfile(st, session, f).Ok? ==>
      var st' := AddProfile(st, session, f).value;
      && Valid(st') && OffsetsKept(st, st') && Isolated(st, st', session.value)
      && Offset(st', st.next) == f.balance.value
  {
    var r := AddProfile(st, session, f);
    if r.Ok? {
      var st' := r.value;
      forall k | k in st.transactions
        ensures st.transactions[k].profile != st.next
      {
        assert Resolves(st.profiles, st.transactions[k]);
      }
      TotalUnreferenced(st.transactions, st.next);
      forall v | v != session.value
        ensures OwnedProfiles(st', v) == OwnedProfiles(st, v)
      {
      }
    }
  }

  /**
   * Editing a profile sets its offset to the new balance minus the sum of its
   * transactions; every other profile keeps its offset.
   */
  lemma EditPreserves(st: Store, session: Option<UserId>, f: EditForm)
    requires Valid(st)
    ensures EditProfile(st, session, f).Ok? ==>
      var st', id := EditProfile(st, session, f).value, f.id.id;
      && Valid(st') && Isolated(st, st', session.value)
      && (forall p :: p in st.profiles && p != id ==> Offset(st', p) == Offset(st, p))
      && (FindProfile(st, id, session.value).Some? ==>
            Offset(st', id) == f.data.balance.value - Total(st.transactions, id))
  {
    var r := EditProfile(st, session, f);
    if r.Ok? {
      var st' := r.value;
      forall v | v != session.value
        ensures OwnedProfiles(st', v) == OwnedProfiles(st, v)
      {
      }
    }
  }

  /** After the cascade no transaction of the caller references the profile, and nothing else moves. */
  lemma DeletePreserves(st: Store, session: Option<UserId>, f: IdForm)
    requires Valid(st)
    ensures DeleteProfile(st, session, f).Ok? ==>
      var st', id := DeleteProfile(st, session, f).value, f.id.id;
      && Valid(st') && OffsetsKept(st, st') && Isolated(st, st', session.value)
      && (FindProfile(st, id, session.value).Some? ==>
            forall k :: k in st'.transactions ==> st'.transactions[k].profile != id)
  {
    var r := DeleteProfile(st, session, f);
    if r.Ok? {
      var st' := r.value;
      var u, id := session.value, f.id.id;
      var q := Query(ByProfile, id, u);
      forall k | k in st'.transactions
        ensures FindProfile(st, id, u).Some? ==> st'.transactions[k].profile != id
        ensures Resolves(st'.profiles, st'.transactions[k])
      {
        assert Resolves(st.profiles, st.transactions[k]);
      }
      forall p | p in st.profiles && p in st'.profiles
        ensures Offset(st', p) == Offset(st, p)
      {
        TotalSplit(st.transactions, q, p);
        TotalUnreferenced(Select(st.transactions, q), p);
      }
      forall v | v != u
        ensures OwnedProfiles(st', v) == OwnedProfiles(st, v)
        ensures OwnedTransactions(st', v) == OwnedTransactions(st, v)
      {
      }
    }
  }

  /** Deleting a missing or foreign profile answers ok and changes nothing. */
  lemma DeleteMissingIsNoOp(st: Store, session: Option<UserId>, f: IdForm)
    requires Valid(st)
    requires f.id.ObjectId? && session.Some? && FindProfile(st, f.id.id, session.value).None?
    ensures DeleteProfile(st, session, f) == Ok(st)
  {
    var u, id := session.value, f.id.id;
    forall k | k in st.transactions
      ensures !Matches(Query(ByProfile, id, u), st.transactions[k])
    {
      assert Resolves(st.profiles, st.transactions[k]);
    }
    assert Drop(st.transactions, Query(ByProfile, id, u)) == st.transactions;
  }

  /** A malformed `_id` is what an edit reports, whatever the other fields, the session and the store hold. */
  lemma EditReportsMalformedId(st: Store, session: Option<UserId>, f: EditForm)
    requires !f.id.ObjectId?
    ensures EditProfile(st, session, f) == Err(InvalidInput)
  {
    FirstIssueOfConcat(IdIssues(f.id), FormIssues(f.data));
  }
}

=== FILE: transactions.dfy ===
/**
 * The transaction server actions: `getTransactions`, `addTransaction`,
 * `deleteTransaction` and `editTransaction`.
 *
 * Each `mongoose.connection.transaction` block is one atomic step of the
 * model. The blocks of `addTransaction` and `deleteTransaction` are not
 * awaited in the source (the action answers ok before they commit, and a
 * failure inside them is never reported); a sequential model cannot state
 * that, so it treats them as committed when the action answers.
 */
module TransactionActions {
  import opened Wrappers
  import opened Validation
  import opened Users
  import opened Ledger

  const ProfileMissing: string := "Profile doesn't exist."
  const TransactionMissing: string := "Transaction doesn't exist."
  const OwnProfileMissing: string := "Profile associate with current transaction doesn't exist."
  const DescriptionTooLong: string := "Description must no exceed 64 characters long."
  const DateMalformed: string := "Date must be a valid zoned date time format."

  /** The fields of the add form, as the schema sees them. */
  datatype TransactionForm = TransactionForm(
    profile: RawId, category: RawId, description: string, balance: RawNumber, date: RawDate)

  /** The edit form: the transaction's `_id`, then the same fields. */
  datatype EditForm = EditForm(id: RawId, data: TransactionForm)

  /** The issues of the transaction schema, in key order. */
  function FormIssues(f: TransactionForm): (issues: seq<string>)
    ensures issues == [] <==>
      f.profile.ObjectId? && f.category.ObjectId? && |f.description| <= 64
      && f.balance.Number? && f.date.Zoned?
    ensures !f.profile.ObjectId? ==> issues[0] == InvalidInput
    ensures f.profile.ObjectId? && !f.category.ObjectId? ==> issues[0] == InvalidInput
    ensures f.profile.ObjectId? && f.category.ObjectId? && |f.description| > 64 ==>
      issues[0] == DescriptionTooLong
    ensures f.profile.ObjectId? && f.category.ObjectId? && |f.description| <= 64 && !f.balance.Number? ==>
      issues[0] == BalanceNotNumber
    ensures f.profile.ObjectId? && f.category.ObjectId? && |f.description| <= 64 && f.balance.Number?
            && !f.date.Zoned? ==>
      issues == [DateMalformed]
  {
    IdIssues(f.profile) + IdIssues(f.category)
    + MaxLengthIssues(f.description, 64, DescriptionTooLong)
    + NumberIssues(f.balance, BalanceNotNumber) + DateIssues(f.date, DateMalformed)
  }

  /** The transaction a validated form describes, owned by `u`. */
  function Entry(u: UserId, f: TransactionForm): Transaction
    requires FormIssues(f) == []
  {
    Transaction(u, f.profile.id, f.category.id, f.description, f.balance.value, f.date.text)
  }

  /** `getTransactions`: the caller's transactions, nothing without a session. */
  function GetTransactions(st: Store, session: Option<UserId>): (r: map<Id, Transaction>)
    ensures session.None? ==> r == map[]
    ensures session.Some? ==> forall k :: k in r <==> k in st.transactions && st.transactions[k].user == session.value
    ensures forall k :: k in r ==> r[k] == st.transactions[k]
  {
    if session.None? then map[] else OwnedTransactions(st, session.value)
  }

  /**
   * `addTransaction`: validate, require a session, require the profile to be
   * the caller's, then create the transaction and raise that profile's balance
   * by its amount. The category is never looked up.
   */
  function AddTransaction(st: Store, session: Option<UserId>, f: TransactionForm): (r: Result<Store>)
    ensures FormIssues(f) != [] ==> r == Err(FormIssues(f)[0])
    ensures FormIssues(f) == [] && session.None? ==> r == Err(InvalidSession)
    ensures FormIssues(f) == [] && session.Some? && FindProfile(st, f.profile.id, session.value).None? ==>
      r == Err(ProfileMissing)
    ensures r.Ok? <==>
      FormIssues(f) == [] && session.Some? && FindProfile(st, f.profile.id, session.value).Some?
    ensures r.Ok? ==>
      var u, p, a := session.value, f.profile.id, f.balance.value;
      && r.value.transactions.Keys == st.transactions.Keys + {st.next}
      && (forall k :: k in st.transactions && k != st.next ==> r.value.transactions[k] == st.transactions[k])
      && r.value.transactions[st.next] == Transaction(u, p, f.category.id, f.description, a, f.date.text)
      && r.value.profiles.Keys == st.profiles.Keys
      && r.value.profiles[p] == st.profiles[p].(balance := st.profiles[p].balance + a)
      && (forall k :: k in st.profiles && k != p ==> r.value.profiles[k] == st.profiles[k])
      && r.value.categories == st.categories
  {
    var reported := FirstIssue(FormIssues(f));
    if reported.Some? then Err(reported.value)
    else if session.None? then Err(InvalidSession)
    else
      var u := session.value;
      if FindProfile(st, f.profile.id, u).None? then Err(ProfileMissing)
      else
        Ok(st.(
          transactions := st.transactions[st.next := Entry(u, f)],
          profiles := IncBalance(st.profiles, f.profile.id, u, f.balance.value),
          next := st.next + 1))
  }

  /**
   * `deleteTransaction`: require the transaction to be the caller's, then
   * remove it and lower its profile's balance by its amount. The profile is
   * not looked up first: if it were missing the update would match nothing.
   */
  function DeleteTransaction(st: Store, session: Option<UserId>, f: IdForm): (r: Result<Store>)
    ensures !f.id.ObjectId? ==> r == Err(InvalidInput)
    ensures f.id.ObjectId? && session.None? ==> r == Err(InvalidSession)
    ensures r.Ok? <==>
      f.id.ObjectId? && session.Some? && FindTransaction(st, f.id.id, session.value).Some?
    ensures f.id.ObjectId? && session.Some? && FindTransaction(st, f.id.id, session.value).None? ==>
      r == Err(TransactionMissing)
    ensures r.Ok? ==>
      var t := st.transactions[f.id.id];
      && r.value.transactions == st.transactions - {f.id.id}
      && r.value.profiles.Keys == st.profiles.Keys
      && (t.profile in st.profiles && st.profiles[t.profile].user == t.user ==>
            r.value.profiles[t.profile] == st.profiles[t.profile].(balance := st.profiles[t.profile].balance - t.balance))
      && (t.profile in st.profiles && st.profiles[t.profile].user != t.user ==>
            r.value.profiles[t.profile] == st.profiles[t.profile])
      && (forall k :: k in st.profiles && k != t.profile ==> r.value.profiles[k] == st.profiles[k])
      && r.value.categories == st.categories
      && r.value.next == st.next
  {
    var reported := FirstIssue(IdIssues(f.id));
    if reported.Some? then Err(reported.value)
    else if session.None? then Err(InvalidSession)
    else
      var u := session.value;
      var found := FindTransaction(st, f.id.id, u);
      if found.None? then Err(TransactionMissing)
      else
        var t := found.value;
        Ok(st.(
          profiles := IncBalance(st.profiles, t.profile, u, -t.balance),
          transactions := st.transactions - {f.id.id}))
  }

  /**
   * `editTransaction`. After both lookups succeed the source chooses a branch
   * by `transaction.profile._id === schema.data.profile`, a reference
   * comparison between an ObjectId and the form's string, which does not hold
   * at run time. `sameReference` stands for the outcome of that comparison:
   * the first branch is taken only when it holds and the ids are equal.
   */
  function EditTransaction(st: Store, session: Option<UserId>, f: EditForm, sameReference: bool): (r: Result<Store>)
    ensures IdIssues(f.id) + FormIssues(f.data) != [] ==> r == Err((IdIssues(f.id) + FormIssues(f.data))[0])
    ensures r.Ok? ==> f.id.ObjectId? && FormIssues(f.data) == [] && session.Some?
    ensures f.id.ObjectId? && FormIssues(f.data) == [] && session.None? ==> r == Err(InvalidSession)
    ensures f.id.ObjectId? && FormIssues(f.data) == [] && session.Some? ==>
      var u := session.value;
      && (FindTransaction(st, f.id.id, u).None? ==> r == Err(TransactionMissing))
      && (FindTransaction(st, f.id.id, u).Some? ==>
            var t := st.transactions[f.id.id];
            && (FindProfile(st, t.profile, u).None? ==> r == Err(OwnProfileMissing))
            && (FindProfile(st, t.profile, u).Some? ==>
                  && (r.Ok? <==> FindProfile(st, f.data.profile.id, u).Some?)
                  && (FindProfile(st, f.data.profile.id, u).None? ==> r == Err(ProfileMissing))))
    ensures r.Ok? ==>
      var id, u, p, a := f.id.id, session.value, f.data.profile.id, f.data.balance.value;
      var t := st.transactions[id];
      && id in st.transactions
      && r.value.transactions == st.transactions[id := Entry(u, f.data)]
      && r.value.profiles.Keys == st.profiles.Keys
      && (forall k :: k in st.profiles && (k == t.profile || k == p) ==>
            r.value.profiles[k]
            == st.profiles[k].(balance := st.profiles[k].balance
                                          - (if k == t.profile then t.balance else 0) + (if k == p then a else 0)))
      && (forall k :: k in st.profiles && k != t.profile && k != p ==> r.value.profiles[k] == st.profiles[k])
      && r.value.categories == st.categories
      && r.value.next == st.next
  {
    var reported := FirstIssue(IdIssues(f.id) + FormIssues(f.data));
    if reported.Some? then Err(reported.value)
    else if session.None? then Err(InvalidSession)
    else
      var u := session.value;
      var found := FindTransaction(st, f.id.id, u);
      if found.None? then Err(TransactionMissing)
      else
        var t := found.value;
        if FindProfile(st, t.profile, u).None? then Err(OwnProfileMissing)
        else
          var p := f.data.profile.id;
          var a := f.data.balance.value;
          var moved := st.transactions[f.id.id := Entry(u, f.data)];
          if sameReference && p == t.profile then
            Ok(st.(profiles := IncBalance(st.profiles, t.profile, u, a - t.balance), transactions := moved))
          else if FindProfile(st, p, u).None? then Err(ProfileMissing)
          else
            Ok(st.(
              profiles := IncBalance(IncBalance(st.profiles, t.profile, u, -t.balance), p, u, a),
              transactions := moved))
  }

  /* ---------- properties relating the actions ---------- */

  /** Success of `addTransaction` does not depend on the categories in the store. */
  lemma AddIgnoresCategories(st: Store, session: Option<UserId>, f: TransactionForm, cats: map<Id, Category>)
    ensures AddTransaction(st.(categories := cats), session, f).Ok? == AddTransaction(st, session, f).Ok?
    ensures AddTransaction(st, session, f).Ok? ==>
      AddTransaction(st.(categories := cats), session, f).value
      == AddTransaction(st, session, f).value.(categories := cats)
  {
  }

  /** Adding a transaction keeps the store valid, every offset, and every other user's view. */
  lemma AddPreserves(st: Store, session: Option<UserId>, f: TransactionForm)
    requires Valid(st)
    ensures AddTransaction(st, session, f).Ok? ==>
      var st' := AddTransaction(st, session, f).value;
      Valid(st') && OffsetsKept(st, st') && Isolated(st, st', session.value)
  {
    var r := AddTransaction(st, session, f);
    if r.Ok? {
      var st' := r.value;
      var u := session.value;
      var t := Entry(u, f);
      forall p | p in st.profiles && p in st'.profiles
        ensures Offset(st', p) == Offset(st, p)
      {
        TotalInsert(st.transactions, st.next, t, p);
      }
      forall v | v != u
        ensures OwnedTransactions(st', v) == OwnedTransactions(st, v)
        ensures OwnedProfiles(st', v) == OwnedProfiles(st, v)
      {
      }
    }
  }

  /** Deleting a transaction keeps the store valid, every offset, and every other user's view. */
  lemma DeletePreserves(st: Store, session: Option<UserId>, f: IdForm)
    requires Valid(st)
    ensures DeleteTransaction(st, session, f).Ok? ==>
      var st' := DeleteTransaction(st, session, f).value;
      Valid(st') && OffsetsKept(st, st') && Isolated(st, st', session.value)
  {
    var r := DeleteTransaction(st, session, f);
    if r.Ok? {
      var st' := r.value;
      var u := session.value;
      var id := f.id.id;
      forall p | p in st.profiles && p in st'.profiles
        ensures Offset(st', p) == Offset(st, p)
      {
        TotalRemove(st.transactions, id, p);
      }
      forall v | v != u
        ensures OwnedTransactions(st', v) == OwnedTransactions(st, v)
        ensures OwnedProfiles(st', v) == OwnedProfiles(st, v)
      {
      }
    }
  }

  /** Editing a transaction keeps the store valid, every offset, and every other user's view. */
  lemma EditPreserves(st: Store, session: Option<UserId>, f: EditForm, sameReference: bool)
    requires Valid(st)
    ensures EditTransaction(st, session, f, sameReference).Ok? ==>
      var st' := EditTransaction(st, session, f, sameReference).value;
      Valid(st') && OffsetsKept(st, st') && Isolated(st, st', session.value)
  {
    var r := EditTransaction(st, session, f, sameReference);
    if r.Ok? {
      EditShape(st, session, f, sameReference);
      EditKeepsOffsets(st, session.value, f.id.id, f.data, r.value);
      EditIsolated(st, session.value, f.id.id, f.data, r.value);
    }
  }

  /** The shape of a successful edit, as the contract of `EditTransaction` gives it. */
  ghost predicate EditedTo(st: Store, u: UserId, id: Id, data: TransactionForm, st': Store)
    requires FormIssues(data) == []
  {
    var p, a := data.profile.id, data.balance.value;
    && id in st.transactions
    && st.transactions[id].user == u
    && Resolves(st.profiles, st.transactions[id])
    && FindProfile(st, p, u).Some?
    && var t := st.transactions[id];
    && st'.transactions == st.transactions[id := Entry(u, data)]
    && st'.profiles.Keys == st.profiles.Keys
    && (forall k :: k in st.profiles ==>
          st'.profiles[k].balance
          == st.profiles[k].balance - (if k == t.profile then t.balance else 0) + (if k == p then a else 0))
    && (forall k :: k in st.profiles && k != t.profile && k != p ==> st'.profiles[k] == st.profiles[k])
    && (forall k :: k in st.profiles ==> st'.profiles[k].user == st.profiles[k].user)
    && st'.categories == st.categories
    && st'.next == st.next
  }

  lemma EditShape(st: Store, session: Option<UserId>, f: EditForm, sameReference: bool)
    requires Valid(st)
    requires EditTransaction(st, session, f, sameReference).Ok?
    ensures FormIssues(f.data) == [] && f.id.ObjectId? && session.Some?
    ensures EditedTo(st, session.value, f.id.id, f.data, EditTransaction(st, session, f, sameReference).value)
  {
  }

  lemma EditKeepsOffsets(st: Store, u: UserId, id: Id, data: TransactionForm, st': Store)
    requires Valid(st) && FormIssues(data) == [] && EditedTo(st, u, id, data, st')
    ensures Valid(st') && OffsetsKept(st, st')
  {
    forall p | p in st.profiles && p in st'.profiles
      ensures Offset(st', p) == Offset(st, p)
    {
      TotalUpdate(st.transactions, id, Entry(u, data), p);
    }
  }

  lemma EditIsolated(st: Store, u: UserId, id: Id, data: TransactionForm, st': Store)
    requires FormIssues(data) == [] && EditedTo(st, u, id, data, st')
    ensures Isolated(st, st', u)
  {
    var t := st.transactions[id];
    forall v | v != u
      ensures OwnedTransactions(st', v) == OwnedTransactions(st, v)
      ensures OwnedProfiles(st', v) == OwnedProfiles(st, v)
      ensures OwnedCategories(st', v) == OwnedCategories(st, v)
    {
      forall k | k in st.profiles && st.profiles[k].user == v
        ensures st'.profiles[k] == st.profiles[k]
      {
        assert k != t.profile && k != data.profile.id;
      }
    }
  }

  /**
   * The outcome of the reference comparison at the branch does not matter:
   * when the ids are equal both branches move that profile by `new - old`.
   */
  lemma EditIgnoresReferenceTest(st: Store, session: Option<UserId>, f: EditForm)
    ensures EditTransaction(st, session, f, true) == EditTransaction(st, session, f, false)
  {
    if IdIssues(f.id) + FormIssues(f.data) == [] && session.Some? {
      var u := session.value;
      var found := FindTransaction(st, f.id.id, u);
      if found.Some? && FindProfile(st, found.value.profile, u).Some? {
        var t := found.value;
        var a := f.data.balance.value;
        if f.data.profile.id == t.profile {
          IncBalanceTwice(st.profiles, t.profile, u, -t.balance, a);
        }
      }
    }
  }

  /** Deleting the transaction just added restores every collection; only the id counter moved on. */
  lemma AddThenDelete(st: Store, session: Option<UserId>, f: TransactionForm)
    requires Valid(st)
    requires AddTransaction(st, session, f).Ok?
    ensures DeleteTransaction(AddTransaction(st, session, f).value, session, IdForm(ObjectId(st.next)))
            == Ok(st.(next := st.next + 1))
  {
    var st1 := AddTransaction(st, session, f).value;
    var u := session.value;
    var p := f.profile.id;
    var a := f.balance.value;
    assert st1.transactions - {st.next} == st.transactions;
    IncBalanceTwice(st.profiles, p, u, a, -a);
    assert IncBalance(st.profiles, p, u, 0) == st.profiles;
  }

  /** A malformed `_id` is what an edit reports, whatever the other fields, the session and the store hold. */
  lemma EditReportsMalformedId(st: Store, session: Option<UserId>, f: EditForm, sameReference: bool)
    requires !f.id.ObjectId?
    ensures EditTransaction(st, session, f, sameReference) == Err(InvalidInput)
  {
    FirstIssueOfConcat(IdIssues(f.id), FormIssues(f.data));
  }
}

=== FILE: users.dfy ===
/**
 * The user model's statics `register` and `login`.
 *
 * bcrypt is abstract: `hash(password, salt)` stands for
 * `bcrypt.hashSync(password, bcrypt.genSaltSync(10))`, with the salt passed
 * in, and `compare` for `bcrypt.compareSync`. The one thing assumed of them,
 * where a property needs it, is that a password matches its own hash.
 */
module Users {
  import opened Wrappers

  /** The `_id` of a user document, as the session carries it. */
  type UserId = nat
  /** A stored password hash. */
  type Digest = string

  datatype Account = Account(id: UserId, username: string, password: Digest)

  /** The users collection in its natural order, and the next `_id`. */
  datatype UserStore = UserStore(accounts: seq<Account>, next: UserId)

  /** `findOne({ username })`: the first account with that username. */
  function FindByUsername(accounts: seq<Account>, username: string): (r: Option<Account>)
    ensures r.None? <==> forall i :: 0 <= i < |accounts| ==> accounts[i].username != username
    ensures r.Some? ==> r.value in accounts && r.value.username == username
    ensures r.Some? ==> exists i :: 0 <= i < |accounts| && accounts[i] == r.value
                         && forall j :: 0 <= j < i ==> accounts[j].username != username
    decreases |accounts|
  {
    if |accounts| == 0 then None
    else if accounts[0].username == username then Some(accounts[0])
    else
      var r := FindByUsername(accounts[1..], username);
      if r.Some? then
        ghost var i :| 0 <= i < |accounts[1..]| && accounts[1..][i] == r.value
                       && forall j :: 0 <= j < i ==> accounts[1..][j].username != username;
        assert accounts[i + 1] == r.value;
        r
      else r
  }

  /** No two accounts share a username. */
  ghost predicate UniqueNames(st: UserStore) {
    forall i, j :: 0 <= i < j < |st.accounts| ==> st.accounts[i].username != st.accounts[j].username
  }

  /**
   * `User.register`: refuses a username already taken; otherwise appends one
   * account whose stored password is the hash of the given one.
   */
  function Register(st: UserStore, username: string, password: string, salt: nat,
                    hash: (string, nat) -> Digest): (r: (bool, UserStore))
    ensures r.0 <==> FindByUsername(st.accounts, username).None?
    ensures !r.0 ==> r.1 == st
    ensures r.0 ==> r.1.accounts == st.accounts + [Account(st.next, username, hash(password, salt))]
    ensures r.0 ==> r.1.next == st.next + 1
  {
    if FindByUsername(st.accounts, username).Some? then (false, st)
    else (true, UserStore(st.accounts + [Account(st.next, username, hash(password, salt))], st.next + 1))
  }

  /**
   * `User.login`: `null` when the lookup throws (`lookupFails`), when no user
   * has that username, or when the password does not match the stored hash.
   */
  function Login(st: UserStore, username: string, password: string, lookupFails: bool,
                 compare: (string, Digest) -> bool): (r: Option<Account>)
    ensures lookupFails ==> r.None?
    ensures FindByUsername(st.accounts, username).None? ==> r.None?
    ensures r.Some? ==> r.value in st.accounts && r.value.username == username
    ensures r.Some? ==> r == FindByUsername(st.accounts, username)
    ensures r.Some? ==> compare(password, r.value.password)
    ensures !lookupFails && FindByUsername(st.accounts, username).Some? ==>
      (r.Some? <==> compare(password, FindByUsername(st.accounts, username).value.password))
  {
    if lookupFails then None
    else
      var user := FindByUsername(st.accounts, username);
      if user.None? || !compare(password, user.value.password) then None else user
  }

  /** Appending an account leaves earlier matches first and finds the new one otherwise. */
  lemma {:induction false} FindAfterAppend(accounts: seq<Account>, a: Account, username: string)
    ensures FindByUsername(accounts + [a], username)
      == if FindByUsername(accounts, username).Some? then FindByUsername(accounts, username)
         else if a.username == username then Some(a) else None
    decreases |accounts|
  {
    if |accounts| > 0 {
      assert (accounts + [a])[1..] == accounts[1..] + [a];
      FindAfterAppend(accounts[1..], a, username);
    } else {
      assert (accounts + [a])[1..] == [];
    }
  }

  /** Registration keeps usernames unique. */
  lemma RegisterKeepsNamesUnique(st: UserStore, username: string, password: string, salt: nat,
                                 hash: (string, nat) -> Digest)
    requires UniqueNames(st)
    ensures UniqueNames(Register(st, username, password, salt, hash).1)
  {
  }

  /** A user who has just registered can log in with the same password. */
  lemma RegisterThenLogin(st: UserStore, username: string, password: string, salt: nat,
                          hash: (string, nat) -> Digest, compare: (string, Digest) -> bool)
    requires forall p, s :: compare(p, hash(p, s))
    requires Register(st, username, password, salt, hash).0
    ensures Login(Register(st, username, password, salt, hash).1, username, password, false, compare)
            == Some(Account(st.next, username, hash(password, salt)))
  {
    FindAfterAppend(st.accounts, Account(st.next, username, hash(password, salt)), username);
  }
}

=== FILE: validation.dfy ===
/**
 * The form-field checks the server actions run through their zod schemas
 * before touching the session or the store.
 *
 * A schema reports every failing check, in the order of the keys of the
 * object schema; an action answers with the message of the first one only.
 * Checks that zod delegates to libraries (ObjectId validity, number coercion,
 * zoned date-time parsing) are abstracted into the shape of the raw field.
 */
module Validation {
  import opened Wrappers

  /** A form field that should hold a MongoDB ObjectId; `Malformed` when `ObjectId.isValid` rejects it. */
  datatype RawId = ObjectId(id: nat) | Malformed

  /** A form field coerced with `z.coerce.number`; `NotNumber` when the coercion gives NaN. */
  datatype RawNumber = Number(value: int) | NotNumber

  /** A form field that should parse as a zoned date-time. */
  datatype RawDate = Zoned(text: string) | Unparseable

  /** The form of the actions that only carry an `_id`. */
  datatype IdForm = IdForm(id: RawId)

  /** zod's default message for a failed `z.custom` check. */
  const InvalidInput: string := "Invalid input"

  /** Messages shared by several schemas. */
  const NameTooShort: string := "Name must be at least 1 character long."
  const NameTooLong: string := "Name must not exceed 64 characters long."
  const BalanceNotNumber: string := "Balance must be a number."

  /** What every mutating action answers, after validation, when there is no user session. */
  const InvalidSession: string := "Invalid user session."

  /** The issue raised by a `z.custom` ObjectId check. */
  function IdIssues(r: RawId): (issues: seq<string>)
    ensures |issues| <= 1
    ensures issues == [] <==> r.ObjectId?
    ensures issues != [] ==> issues[0] == InvalidInput
  {
    if r.ObjectId? then [] else [InvalidInput]
  }

  /** The issues of `z.string().min(lo, short).max(hi, long)`: both checks run, in that order. */
  function LengthIssues(s: string, lo: nat, hi: nat, short: string, long: string): (issues: seq<string>)
    requires lo <= hi
    ensures issues == [] <==> lo <= |s| <= hi
    ensures |s| < lo ==> issues == [short]
    ensures hi < |s| ==> issues == [long]
  {
    (if |s| < lo then [short] else []) + (if hi < |s| then [long] else [])
  }

  /** The issue of `z.string().max(hi, long)`. */
  function MaxLengthIssues(s: string, hi: nat, long: string): (issues: seq<string>)
    ensures issues == [] <==> |s| <= hi
    ensures issues != [] ==> issues == [long]
  {
    if hi < |s| then [long] else []
  }

  /** The issue of a `z.coerce.number` field. */
  function NumberIssues(r: RawNumber, message: string): (issues: seq<string>)
    ensures issues == [] <==> r.Number?
    ensures issues != [] ==> issues == [message]
  {
    if r.Number? then [] else [message]
  }

  /** The issue of a string field refined by a zoned date-time parse. */
  function DateIssues(r: RawDate, message: string): (issues: seq<string>)
    ensures issues == [] <==> r.Zoned?
    ensures issues != [] ==> issues == [message]
  {
    if r.Zoned? then [] else [message]
  }

  /** `schema.error.issues.at(0)?.message`: the message an action reports for a failed parse. */
  function FirstIssue(issues: seq<string>): (m: Option<string>)
    ensures m.None? <==> issues == []
    ensures m.Some? ==> m.value == issues[0] && m.value in issues
  {
    if issues == [] then None else Some(issues[0])
  }

  /** Later failing checks never change the reported message. */
  lemma FirstIssueOfConcat(a: seq<string>, b: seq<string>)
    requires a != []
    ensures FirstIssue(a + b) == FirstIssue(a)
  {
    assert (a + b)[0] == a[0];
  }
}

=== FILE: wrappers.dfy ===
/** Option and Result wrappers shared by every module of the model. */
module Wrappers {

  /** A value that may be missing: a document lookup that finds nothing, a JavaScript `null`. */
  datatype Option<+T> = None | Some(value: T)

  /** The outcome of a server action: the new state, or the message the action reports. */
  datatype Result<+T> = Ok(value: T) | Err(message: string)
}
